=== FILE: README.md ===
# ViewManager cache policy in Dafny

This project models the cache policy of Readium's `ReadiumSDK.Models.ViewManager`
(`js/models/view_manager.js`) and proves properties of it. The manager keeps a small
list of pre-rendered e-book views, one per spine item or spread. It decides which view
to reuse, which to build and which to throw away. The views themselves are opaque:
the manager only sees what each view has loaded, its class and its `cached` flag.

The model is a deterministic state machine with immutable state and pure functions:

- `options.dfy` (module `Options`): the `Option` type, standing for JavaScript's
  `undefined`, and a map lookup that returns it.
- `view_types.dfy` (module `ViewTypes`): the pure classifiers. They pick a view type
  for a spine item, build the view class for a type, and map a view back to its type.
- `view_manager.dfy` (module `ViewManager`): the manager's state and its transitions:
  - the cache lookup;
  - building, prefetching and registering views;
  - eviction around the current item;
  - the create-or-reuse request;
  - the load event of a view;
  - the delivery of a deferred creation callback.
- `view_manager_properties.dfy` (module `ViewManagerProperties`): properties that relate
  several transitions. They cover the request protocol on a hit and on a miss, the order
  of a miss's callback and its load event, eviction idempotence, and the first-item
  uniqueness invariant of the cache list.

How the state maps to the source:

- `Manager.views` maps view ids to view records.
- `Manager.cache` is `_cachedViews`, in order.
- `Manager.iframes` is `_iframeRereferences`.
- `Manager.viewerSettings` is `_viewerSettings`.
- The one-shot listeners the manager registers on a view's "content document loaded"
  event are two pieces of state:
  - `admitting` holds the views whose admission listener (`saveViewOnceLoaded`) is pending;
  - `awaiting` holds the views whose creation-callback listener (the miss path of
    `getViewForSpineItem`) is pending.
- `off()` clears both listeners of a view.
- The load event is the explicit transition `LoadCompleted`. It carries the iframe
  handle, the event's spine index, and what the view now reports as loaded.
- The miss callback runs after `_.defer` plus a 150 ms timer. The model queues it on the
  load event (`deferred`) and runs it in a later step (`Settle`).
- The cache list never lists a view twice. Views enter it only on their first admission,
  and a view in the list waits for no admission, so `push` never repeats an entry. With
  no repeats, `_.difference` drops exactly the removed views.
- Everything the manager asks of a view or of the caller is recorded as an `Effect`, in
  order: hide, show, set cached, off, created, render, open page, apply settings, the
  synthetic load trigger, remove, and the callback.

Where the code does something other than what its comments or names suggest, the
model follows the code:

- The comment on the admission listener (`js/models/view_manager.js:167`) says it tries
  not to load duplicate views. But the guard compares only the view's first loaded item
  with the cached views, so two cached views can still hold the same spine index.
  What holds is that no two cached views share their FIRST loaded item (`UniqueFirsts`).
  `AdmissionChecksFirstItemOnly` shows how two cached views can come to hold the same item.
- The cache is an ordered list, not a set. The lookup returns the first holder in list
  order, and a reused view stays in the list.
- The constructor's `createViewForItem` parameter is never used. The inner function
  declaration of the same name shadows it throughout the constructor body. So views are
  always built by the manager's own `createViewForItem` and `createViewForType`.
- On a miss, `createViewForType` writes `viewSettings` into the options object it is
  handed. That object is the caller's `viewCreationParams`, so the caller sees the
  change. `Request` returns the caller's parameters as the call leaves them. Prefetching
  writes only into its own copy.
- The lookup runs before eviction. A found view whose first loaded item lies more than
  three positions from the requested item is therefore removed from the list (and sent
  `remove()`) and still handed back and shown. The model keeps this order.

## Model

| member | source | states |
|---|---|---|
| ViewTypes.DeduceDesiredViewType | js/models/view_manager.js:216-242 | Each of the four view types results exactly when its condition holds: a scroll setting first, then the fixed-layout flag, then the scrolled-doc flow flag, then the scrolled-continuous flow flag, else columnized |
| ViewTypes.ScrollSettingOverridesItem | js/models/view_manager.js:219-225 | With a `scroll-doc` or `scroll-continuous` setting the item's flags do not affect the chosen type |
| ViewTypes.FixedLayoutIgnoresFlow | js/models/view_manager.js:227-230 | Two fixed-layout items get the same type under the same settings, whatever their flow flags |
| ViewTypes.ViewTypeForView | js/models/view_manager.js:126-155 | A missing or unrecognised view has no type; reflowable and fallback-scroll views are columnized, fixed is fixed, and a scroll view is continuous or doc exactly as its flag says |
| ViewTypes.CreateViewForType | js/models/view_manager.js:263-290 | The built class classifies back to the requested type; overflow is `auto` exactly for a fixed view; the fallback class is never built |
| ViewTypes.CreateViewForTypeInjective | js/models/view_manager.js:271-287 | Distinct view types are built as distinct classes |
| ViewManager.Init | js/models/view_manager.js:4-13 | A new manager has an empty cache list and iframe table and satisfies the state invariant |
| ViewManager.FirstHolder | js/models/view_manager.js:69-75 | Returns the position of the first id in the list whose view holds the index, and none exactly when no listed view holds it |
| ViewManager.Lookup | js/models/view_manager.js:68-76 | The lookup is none exactly when no cached view holds the index; otherwise it is the first cached view, in list order, that holds it |
| ViewManager.LookupAgrees | js/models/view_manager.js:68-76 | The lookup depends only on the cache list and on what the listed views hold |
| ViewManager.OpenRequestsAppend | js/models/view_manager.js:92-100 | The page-open requests of concatenated effects are the requests of each part, in order |
| ViewManager.OpenRequestsOfPrefetch | js/models/view_manager.js:194-208 | Building, rendering, opening and flagging a prefetched view makes exactly one page-open request |
| ViewManager.SubsequenceMembers | js/models/view_manager.js:122 | Every view kept by the list difference was in the original list |
| ViewManager.SplitByWindow | js/models/view_manager.js:109-112 | Splits the list into the views within three positions of the item and the rest, each part keeping the original order, with every id in one of them |
| ViewManager.SubsequenceDistinct | js/models/view_manager.js:122 | Dropping views from a list without repeats leaves a list without repeats |
| ViewManager.SubsequenceUnique | js/models/view_manager.js:122 | Within a list without repeats, an order-preserving selection is fixed by which members it keeps |
| ViewManager.Expire | js/models/view_manager.js:105-123 | Every remaining view's first item is within three of the item; views within the window stay in their order; exactly the views outside it are dropped and removed; nothing else, the iframe table included, changes; the list stays free of repeats |
| ViewManager.ExpireRemovesInOrder | js/models/view_manager.js:109-119 | The views sent `remove()` come in cache-list order |
| ViewManager.ExpireKeepsExactly | js/models/view_manager.js:109-122 | The pruned list is the only in-order selection of the cache list that holds exactly the in-window views |
| ViewManager.ExpireRemovesExactly | js/models/view_manager.js:109-119 | The views sent `remove()` are the only in-order selection of the cache list that holds exactly the out-of-window views, so each is removed once |
| ViewManager.CreateViewForItem | js/models/view_manager.js:246-254 | A new view of the deduced type's class is built under a fresh id, not flagged cached and holding nothing; its parameters are the given ones with the viewer settings written in |
| ViewManager.CreatePrefetchedViewForSpineItem | js/models/view_manager.js:180-212 | A cached item yields the lookup's view, no calls and no change; otherwise the result is that of building a prefetched view |
| ViewManager.BuildPrefetched | js/models/view_manager.js:194-208 | A fresh view of the class the deduced view type calls for is built, rendered, flagged cached and opened to the first page (direction 2) or, for "last", the last page (direction 1); every call goes to that view and is a creation, render, page-open or cache-flag call, so nothing shows, hides or removes it; it is not put in the cache list |
| ViewManager.SaveViewOnceLoaded | js/models/view_manager.js:160-166 | An undefined view changes nothing; otherwise the just-built view's admission listener is the only addition: the state invariant holds and the views, the cache list, the iframe table, the other listeners and the deferred queue are unchanged |
| ViewManager.PrefetchedKeepsLookup | js/models/view_manager.js:89-101 | Prefetching does not change any lookup's answer |
| ViewManager.PrefetchedTransitive | js/models/view_manager.js:92-100 | Two prefetch steps together are one prefetch step |
| ViewManager.PrefetchNeighbour | js/models/view_manager.js:92-100 | A spine position is prefetched only if it exists and its item is not cached; then exactly one view, of the class the deduced view type calls for and waiting for admission, is added, exactly one page-open request is made, and every call goes to the new view, which is rendered; only creation, render, page-open and cache-flag calls are made |
| ViewManager.PrefetchBoth | js/models/view_manager.js:89-101 | The right neighbour is opened to its first page, then the left one to its last page, each only when wanted; the left one is judged as before the right one was built; every call goes to a view the step built, every built view is rendered, and only creation, render, page-open and cache-flag calls are made |
| ViewManager.NeighboursOpen | js/models/view_manager.js:92-100 | The two prefetch steps' page-open requests, in order, are the right neighbour's followed by the left neighbour's as judged in the original state |
| ViewManager.RightKeepsLeftWanted | js/models/view_manager.js:98 | Whether a spine position is wanted is the same before and after a prefetch step |
| ViewManager.CacheNeighbours | js/models/view_manager.js:79-101 | With distance d (1 without a current view, else the number of items it has loaded), the page-open requests are exactly: item+d at its first page, then item-d at its last page, each when it exists and is not cached; new views are flagged cached, built from a copy tagged `cachedView` and rendered; every call goes to a view built by the step and is a creation, render, page-open or cache-flag call; the cache list, the iframe table and the existing views are unchanged |
| ViewManager.Detach | js/models/view_manager.js:26-30 | The current view, if any, is hidden, flagged cached and stripped of both listeners, as the first three effects; no view's loaded items change |
| ViewManager.Refresh | js/models/view_manager.js:33-34 | After prefetch and eviction, the cache list is a subsequence of the old one and lies within the window; existing views are untouched; new admissions belong to new views only |
| ViewManager.Reuse | js/models/view_manager.js:37-43 | The found view is unflagged, shown, given the viewer settings, and sent the synthetic load event with the item's recorded iframe; every call goes to that view and none hides or removes it; the last effect is the one callback, reporting the view as not new; the caller's creation parameters are left as they came |
| ViewManager.OpenNew | js/models/view_manager.js:44-56 | A fresh view of the class the deduced view type calls for is built, registered for admission outside the cache list and rendered; every call goes to it and is a creation, render or page-open call; it is opened to the item's default page (direction 0), and its callback waits for its load event; no callback runs and the cache list is untouched |
| ViewManager.Respond | js/models/view_manager.js:37-60 | A found view is handed back and ends the call with exactly one callback; without one, a view that did not exist is handed back, waiting for admission and outside the cache list, and no callback runs; the cache list and the loaded items of existing views are unchanged |
| ViewManager.Request | js/models/view_manager.js:23-62 | The state invariant holds afterwards; the viewer settings are recorded; the cache list only shrinks; the iframe table is unchanged; no view's loaded items change |
| ViewManager.LoadCompleted | js/models/view_manager.js:166-174 | A view waiting for admission is appended, and the iframe recorded under the event's index, exactly when no cached view holds its first loaded item; otherwise the list and the table are unchanged; a pending creation callback is queued; both listeners are consumed |
| ViewManager.Settle | js/models/view_manager.js:49-54 | Delivering a deferred callback keeps the state invariant and changes only the queue; each step runs at most one callback, for a known view reported as new, and takes it off the queue in arrival order, so every queued callback runs exactly once |
| ViewManagerProperties.DetachKeepsLookup | js/models/view_manager.js:26-32 | Retiring the current view does not change the lookup |
| ViewManagerProperties.RequestHitView | js/models/view_manager.js:37-40 | On a hit the returned view is the lookup's answer, unflagged, and the caller's parameters are untouched |
| ViewManagerProperties.RequestHitCallsBack | js/models/view_manager.js:43 | On a hit the last effect is `callback(false, view)` |
| ViewManagerProperties.RequestHitCallsBackOnce | js/models/view_manager.js:43 | On a hit no earlier effect is a callback |
| ViewManagerProperties.RequestHitShows | js/models/view_manager.js:38-43 | On a hit the found view is shown and given the viewer settings, and no later call in the same request hides or removes it |
| ViewManagerProperties.RequestHitListeners | js/models/view_manager.js:26-43 | On a hit only the current view's pending callback is cancelled; none is added |
| ViewManagerProperties.RequestHit | js/models/view_manager.js:37-43 | The hit facts together |
| ViewManagerProperties.RequestMissView | js/models/view_manager.js:45-46 | On a miss the returned view is new, of the class the deduced view type calls for, waits for admission and is not in the cache list; the caller's parameters come back with the viewer settings written in |
| ViewManagerProperties.RequestMissEffects | js/models/view_manager.js:47-48 | On a miss no callback runs during the call, and the new view is rendered and opened to the item |
| ViewManagerProperties.RequestMissListeners | js/models/view_manager.js:49-56 | On a miss the new view's callback waits for its load event, and the current view's is cancelled |
| ViewManagerProperties.RequestMiss | js/models/view_manager.js:44-56 | The miss facts together |
| ViewManagerProperties.RequestRetiresCurrentFirst | js/models/view_manager.js:26-30 | Any request begins by hiding the current view, flagging it cached and calling `off()` on it |
| ViewManagerProperties.RequestRetiresCurrentListeners | js/models/view_manager.js:29 | After any request the retired view waits for neither admission nor a callback |
| ViewManagerProperties.RequestRetiresCurrent | js/models/view_manager.js:26-30 | The two retirement facts together |
| ViewManagerProperties.RequestPrunes | js/models/view_manager.js:34 | After any request every cached view's first item is within three of the requested item |
| ViewManagerProperties.WindowKept | js/models/view_manager.js:36-60 | Reusing or opening a view keeps the pruned list inside the window |
| ViewManagerProperties.CallbackAfterLoad | js/models/view_manager.js:49-56 | After a miss, the new view's load event queues its callback behind those already waiting, a second load event queues nothing more, and with nothing queued before the next step runs it reporting the view as new |
| ViewManagerProperties.SplitIdempotent | js/models/view_manager.js:109-112 | Splitting the kept part again keeps all of it |
| ViewManagerProperties.ExpireIdempotent | js/models/view_manager.js:109-122 | Pruning twice around the same item leaves the same cache list as pruning once, and the second pass removes nothing |
| ViewManagerProperties.SubsequenceKeepsDistinctFirsts | js/models/view_manager.js:122 | Dropping views from a list keeps first items distinct |
| ViewManagerProperties.ExpireKeepsUniqueFirsts | js/models/view_manager.js:105-123 | Eviction cannot make two cached views share a first item |
| ViewManagerProperties.LoadCompletedKeepsUniqueFirsts | js/models/view_manager.js:166-174 | Admission keeps the first items of cached views distinct |
| ViewManagerProperties.NoDistancePrefetchesItself | js/models/view_manager.js:84-100 | At neighbour distance 0, an uncached requested item is itself prefetched twice, to its first page and then to its last |
| ViewManagerProperties.UnloadedCurrentPrefetchesItself | js/models/view_manager.js:84-100 | With a current view that has loaded nothing, the distance is 0 and an uncached requested item is itself prefetched twice, to its first page and then to its last |
| ViewManagerProperties.AdmissionChecksFirstItemOnly | js/models/view_manager.js:168-169 | A view whose first item is not cached is admitted even when a cached view holds one of its later items, so two cached views then hold that item |
| ViewManagerProperties.PrefetchedKeepsUniqueFirsts | js/models/view_manager.js:92-100 | Prefetching keeps the first items of cached views distinct |
| ViewManagerProperties.CacheNeighboursKeepsUniqueFirsts | js/models/view_manager.js:80-101 | Neighbour prefetch keeps the first items of cached views distinct |
| ViewManagerProperties.RequestKeepsUniqueFirsts | js/models/view_manager.js:23-62 | A request keeps the first items of cached views distinct |
| ViewManagerProperties.ShrinkKeepsUniqueFirsts | js/models/view_manager.js:122 | Any step that only drops views from the cache list and keeps every view's holdings keeps the first items of cached views distinct |

## Left out

- Logging (`console.log`, `console.error`, `console.assert`) and the global
  `ReadiumSDK.cacheStats` debug hook are diagnostics and change no state.
- The viewport CSS calls are DOM manipulation. Only the chosen overflow style is recorded,
  in the `Created` effect.
- Wall-clock timing. `_.defer` and the 150 ms timer are modelled as a FIFO of deferred
  callbacks. The model only says that the callback runs in a step after the load event.
- The view classes, `render`, `show`, `hide`, `openPage`, `PageOpenRequest` and
  `setViewSettings` are not part of this model. They are recorded as effects or flag
  updates.
- The event system (`once`, `off`, `trigger`) is not part of this model. A view's pending
  listeners are the `admitting` and `awaiting` entries. The synthetic load event on a hit
  is only recorded, since a view in the cache list has no pending listener.
- `ScrollView.isContinuousScroll()` is not part of this model. The model takes it to
  report the flag the view was constructed with, carried in `ScrollView(continuous)`.
- The options other than `scroll`, `cachedView` and `viewSettings` are passed through
  untouched by the source and are not modelled.
- The constructor's `createViewForItem` parameter is shadowed and never called, so it is
  not modelled.
- Spine items are identified by their `index` field. The model does not assume that the
  item at spine position k has index k. The neighbour positions are computed from the
  requested item's index, as in the source.
- A new view is taken to report nothing loaded until its load event, since the view
  classes are not part of this model. So a current view that is still loading gives a
  neighbour distance of 0. Then, when the requested item is not cached, the item itself is
  prefetched twice: once to its first page and once to its last
  (`UnloadedCurrentPrefetchesItself`). The real views may report their item earlier.
- A `null` current view is not modelled; `Option.None` stands for `undefined` only. The
  source would skip retiring a `null` view (`js/models/view_manager.js:26`, `null` is
  falsy), then call `getLoadedSpineItems()` on it (`js/models/view_manager.js:84`, where
  `_.isUndefined(null)` is false) and throw before any lookup or prefetch. A thrown
  error is outside this model.
- A load event is taken to report a non-empty list of loaded items, since the source
  reads `getLoadedSpineItems()[0]` on every admitted view.
- ViewManager.CacheNeighbours: does not state how many views are added. Each page-open
  request it reports comes with one new view, but that count is not part of the contract.
- ViewManagerProperties.LoadCompletedKeepsUniqueFirsts: assumes that a load event on a view
  already in the cache list reports what that view already holds. The source never
  re-admits such a view, but a view that reloads other content is outside the model.

=== FILE: options.dfy ===
/** The absent-or-present value used wherever the source returns `undefined`. */
module Options {

  datatype Option<+T> = None | Some(value: T)

  /** Map lookup that yields None for a missing key (JavaScript's `table[key]`). */
  function Get<K, V>(m: map<K, V>, k: K): Option<V>
  {
    if k in m then Some(m[k]) else None
  }
}

=== FILE: view_manager.dfy ===
/**
 * The view manager's cache policy as a deterministic state machine.
 *
 * Views are opaque rendering units; the manager only sees which spine items a
 * view has loaded, its class and its `cached` flag, and records what it asks
 * of a view (hide, show, render, open a page, remove, ...) as effects. The
 * asynchronous "content document loaded" event is the explicit transition
 * `LoadCompleted`; the creation callback that the source defers and then
 * delays by 150ms is queued by that transition and delivered by `Settle`.
 */
module ViewManager {
  import opened Options
  import opened ViewTypes

  type ViewId = nat
  type CallbackId = nat

  /** An opaque rendering-surface handle carried by a load event. */
  datatype Iframe = Iframe(handle: nat)

  /** How a page-open request is positioned within its spine item. */
  datatype PageRequest = DefaultPage | FirstPage | LastPage

  /**
   * View creation parameters. `scroll` is the field the type deduction reads
   * (it is handed these parameters), `cachedView` tags prefetched views and
   * `viewSettings` is filled in from the manager's settings on construction.
   */
  datatype CreationParams = CreationParams(
    scroll: string,
    cachedView: bool,
    viewSettings: Option<Settings>)

  /** A view as the manager sees it. `loaded` is empty until the view has loaded. */
  datatype View = View(
    id: ViewId,
    loaded: seq<int>,
    variant: Variant,
    cached: bool,
    params: CreationParams)

  /** What the manager asks of views and of the caller, in order. */
  datatype Effect =
    | Hide(view: ViewId)
    | Show(view: ViewId)
    | SetCached(view: ViewId, flag: bool)
    | Off(view: ViewId)
    | Created(view: ViewId, variant: Variant, overflow: Overflow)
    | Render(view: ViewId)
    | OpenPage(view: ViewId, index: int, page: PageRequest, direction: int)
    | ApplySettings(view: ViewId, settings: Settings)
    | Trigger(view: ViewId, iframe: Option<Iframe>, index: int)
    | Remove(view: ViewId)
    | Callback(callback: CallbackId, isNew: bool, view: ViewId)

  /** A creation callback whose load event has fired but which has not run yet. */
  datatype Deferred = Deferred(callback: CallbackId, view: ViewId)

  /**
   * The manager: the spine, every view it has built (by id), the ordered list
   * of cached views, the iframe table keyed by spine index, the last viewer
   * settings, the views with a pending admission listener, the views with a
   * pending creation-callback listener, and the callbacks waiting to run.
   */
  datatype Manager = Manager(
    spine: seq<SpineItem>,
    views: map<ViewId, View>,
    cache: seq<ViewId>,
    iframes: map<int, Iframe>,
    viewerSettings: Option<Settings>,
    admitting: set<ViewId>,
    awaiting: map<ViewId, CallbackId>,
    deferred: seq<Deferred>,
    nextId: ViewId)
  {
    /**
     * Every view is filed under its own id, below the next fresh id; cached
     * views are known, have loaded something and no longer wait for
     * admission; a pending creation callback belongs to a view that is also
     * still waiting for admission (both listeners are consumed together).
     * No view is listed twice, and every queued callback is for a known view.
     */
    ghost predicate Valid()
    {
      && (forall id :: id in views ==> views[id].id == id && id < nextId)
      && Tracked(views, cache)
      && Distinct(cache)
      && (forall id :: id in cache ==> id !in admitting)
      && admitting <= views.Keys
      && awaiting.Keys <= admitting
      && (forall k :: 0 <= k < |deferred| ==> deferred[k].view in views)
    }
  }

  datatype Step = Step(state: Manager, effects: seq<Effect>)

  /** A transition that hands back a view, and the caller's creation parameters after the call. */
  datatype ViewResult = ViewResult(state: Manager, view: ViewId, effects: seq<Effect>, params: CreationParams)

  /** Views are evicted when their first loaded item is more than this far from the current one. */
  const EvictionWindow: int := 3

  function Init(spine: seq<SpineItem>): (m: Manager)
    ensures m.Valid() && m.cache == [] && m.iframes == map[]
  {
    Manager(spine, map[], [], map[], None, {}, map[], [], 0)
  }

  // ---------------------------------------------------------------------------
  // Helpers over views and id sequences

  function Abs(x: int): nat
  {
    if x < 0 then -x else x
  }

  /** Every id is a known view that has loaded at least one spine item. */
  ghost predicate Tracked(views: map<ViewId, View>, ids: seq<ViewId>)
  {
    forall k :: 0 <= k < |ids| ==> ids[k] in views && |views[ids[k]].loaded| > 0
  }

  predicate Holds(views: map<ViewId, View>, id: ViewId, index: int)
  {
    id in views && index in views[id].loaded
  }

  /** Some cached view holds the spine index. */
  predicate IsCached(m: Manager, index: int)
  {
    exists k :: 0 <= k < |m.cache| && Holds(m.views, m.cache[k], index)
  }

  predicate InWindow(views: map<ViewId, View>, id: ViewId, center: int)
    requires id in views && |views[id].loaded| > 0
  {
    Abs(views[id].loaded[0] - center) <= EvictionWindow
  }

  /** `a` is `b` with some elements dropped, the rest in their original order. */
  ghost predicate Subsequence<T>(a: seq<T>, b: seq<T>)
    decreases |b|
  {
    && |a| <= |b|
    && (|a| == 0
        || (a[0] == b[0] && Subsequence(a[1..], b[1..]))
        || Subsequence(a, b[1..]))
  }

  predicate Distinct<T(==)>(s: seq<T>)
  {
    forall p, q :: 0 <= p < q < |s| ==> s[p] != s[q]
  }

  /** Appending an element the list lacks keeps it free of repeats. */
  lemma DistinctAppend<T>(s: seq<T>, x: T)
    requires Distinct(s) && x !in s
    ensures Distinct(s + [x])
  {
  }

  /** Every effect is addressed to a view that `s` has and `m` did not: a view just built. */
  predicate AddressedToNew(effects: seq<Effect>, m: Manager, s: Manager)
  {
    forall e :: e in effects ==> e.view in s.views && e.view !in m.views
  }

  /** Calls on views built by two successive steps go to views built by the pair. */
  lemma AddressedToNewAppend(a: seq<Effect>, b: seq<Effect>, m: Manager, s: Manager, t: Manager)
    requires m.views.Keys <= s.views.Keys <= t.views.Keys
    requires AddressedToNew(a, m, s) && AddressedToNew(b, s, t)
    ensures AddressedToNew(a + b, m, t)
  {
  }

  /**
   * Only the calls that build a view: creation, render(), openPage() and the
   * cache flag. In particular no view is shown, hidden, detached or removed.
   */
  predicate BuildingCalls(effects: seq<Effect>)
  {
    forall e :: e in effects ==> e.Created? || e.Render? || e.OpenPage? || e.SetCached?
  }

  /** Every view that `s` has and `m` did not has been rendered. */
  predicate RendersNew(effects: seq<Effect>, m: Manager, s: Manager)
  {
    forall id :: id in s.views && id !in m.views ==> Render(id) in effects
  }

  /** Two successive building steps together make building calls and render every view they built. */
  lemma BuildingAppend(a: seq<Effect>, b: seq<Effect>, m: Manager, s: Manager, t: Manager)
    requires m.views.Keys <= s.views.Keys
    requires BuildingCalls(a) && BuildingCalls(b)
    requires RendersNew(a, m, s) && RendersNew(b, s, t)
    ensures BuildingCalls(a + b) && RendersNew(a + b, m, t)
  {
  }

  /** `v` is shown at some point and neither hidden nor removed afterwards. */
  predicate ShownAfterwards(effects: seq<Effect>, v: ViewId)
  {
    exists i :: 0 <= i < |effects| && effects[i] == Show(v)
      && forall k :: i < k < |effects| ==> effects[k] != Hide(v) && effects[k] != Remove(v)
  }

  /** A view shown by calls that never hide or remove it stays shown. */
  lemma ShownUntouched(effects: seq<Effect>, v: ViewId)
    requires Show(v) in effects && Hide(v) !in effects && Remove(v) !in effects
    ensures ShownAfterwards(effects, v)
  {
  }

  /** What comes before a view is shown does not undo it. */
  lemma ShownAfterwardsAppend(a: seq<Effect>, b: seq<Effect>, v: ViewId)
    requires ShownAfterwards(b, v)
    ensures ShownAfterwards(a + b, v)
  {
    var i :| 0 <= i < |b| && b[i] == Show(v)
      && forall k :: i < k < |b| ==> b[k] != Hide(v) && b[k] != Remove(v);
    assert (a + b)[|a| + i] == Show(v);
    forall k | |a| + i < k < |a + b|
      ensures (a + b)[k] != Hide(v) && (a + b)[k] != Remove(v)
    {
      assert (a + b)[k] == b[k - |a|];
    }
  }

  /** The views the effects are addressed to, in order. */
  function Targets(effects: seq<Effect>): seq<ViewId>
  {
    seq(|effects|, k requires 0 <= k < |effects| => effects[k].view)
  }

  predicate CallbackFree(effects: seq<Effect>)
  {
    forall k :: 0 <= k < |effects| ==> !effects[k].Callback?
  }

  lemma CallbackFreeAppend(a: seq<Effect>, b: seq<Effect>)
    requires CallbackFree(a) && CallbackFree(b)
    ensures CallbackFree(a + b)
  {
    assert forall k :: 0 <= k < |b| ==> (a + b)[|a| + k] == b[k];
  }

  /** The page an `OpenPage` effect asks for, without the view it is addressed to. */
  datatype OpenRequest = OpenRequest(index: int, page: PageRequest, direction: int)

  /** The page-open requests among the effects, in order. */
  function OpenRequests(effects: seq<Effect>): seq<OpenRequest>
  {
    if |effects| == 0 then []
    else
      var head := effects[0];
      (if head.OpenPage? then [OpenRequest(head.index, head.page, head.direction)] else [])
      + OpenRequests(effects[1..])
  }

  // ---------------------------------------------------------------------------
  // Lookup

  /** Position of the first id in `cache` whose view holds `index`. */
  function FirstHolder(views: map<ViewId, View>, cache: seq<ViewId>, index: int): (r: Option<nat>)
    ensures r.Some? ==> r.value < |cache| && Holds(views, cache[r.value], index)
    ensures r.Some? ==> forall j :: 0 <= j < r.value ==> !Holds(views, cache[j], index)
    ensures r.None? ==> forall j :: 0 <= j < |cache| ==> !Holds(views, cache[j], index)
    decreases |cache|
  {
    if |cache| == 0 then None
    else if Holds(views, cache[0], index) then Some(0)
    else match FirstHolder(views, cache[1..], index)
      case None => None
      case Some(k) => Some(k + 1)
  }

  /**
   * The cached view for a spine index: the first view in cache order that
   * has loaded the index, or None exactly when no cached view holds it.
   */
  function Lookup(m: Manager, index: int): (r: Option<ViewId>)
    ensures r.None? <==> !IsCached(m, index)
    ensures r.Some? ==>
      exists k :: 0 <= k < |m.cache| && m.cache[k] == r.value && Holds(m.views, m.cache[k], index)
                  && forall j :: 0 <= j < k ==> !Holds(m.views, m.cache[j], index)
  {
    match FirstHolder(m.views, m.cache, index)
    case None => None
    case Some(k) => Some(m.cache[k])
  }

  /** Two states whose cached views hold the same items. */
  ghost predicate SameHoldings(a: Manager, b: Manager)
  {
    && a.cache == b.cache
    && forall k, x :: 0 <= k < |a.cache| ==> Holds(a.views, a.cache[k], x) == Holds(b.views, a.cache[k], x)
  }

  lemma {:induction false} FirstHolderAgrees(va: map<ViewId, View>, vb: map<ViewId, View>, cache: seq<ViewId>, index: int)
    requires forall k :: 0 <= k < |cache| ==> Holds(va, cache[k], index) == Holds(vb, cache[k], index)
    ensures FirstHolder(va, cache, index) == FirstHolder(vb, cache, index)
    decreases |cache|
  {
    if |cache| > 0 {
      FirstHolderAgrees(va, vb, cache[1..], index);
    }
  }

  /** Lookup sees only which items the cached views hold. */
  lemma LookupAgrees(a: Manager, b: Manager, x: int)
    requires SameHoldings(a, b)
    ensures Lookup(a, x) == Lookup(b, x) && IsCached(a, x) == IsCached(b, x)
  {
    FirstHolderAgrees(a.views, b.views, a.cache, x);
  }

  lemma {:induction false} OpenRequestsAppend(a: seq<Effect>, b: seq<Effect>)
    ensures OpenRequests(a + b) == OpenRequests(a) + OpenRequests(b)
    decreases |a|
  {
    if |a| == 0 {
      assert a + b == b;
    } else {
      assert (a + b)[0] == a[0];
      assert (a + b)[1..] == a[1..] + b;
      OpenRequestsAppend(a[1..], b);
    }
  }

  /** The effects of building a prefetched view carry exactly its one page-open request. */
  lemma OpenRequestsOfPrefetch(created: Effect, id: ViewId, index: int, page: PageRequest, direction: int)
    requires !created.OpenPage?
    ensures OpenRequests([created, Render(id), OpenPage(id, index, page, direction), SetCached(id, true)])
            == [OpenRequest(index, page, direction)]
  {
    var e := [created, Render(id), OpenPage(id, index, page, direction), SetCached(id, true)];
    assert e[1..][1..][1..][1..] == [];
    assert OpenRequests(e[1..][1..][1..]) == [];
    assert OpenRequests(e[1..][1..]) == [OpenRequest(index, page, direction)];
  }

  /**
   * The calls that build view `v`: its creation, render(), openPage() and
   * possibly flagging it cached. They all go to `v` and run no callback.
   */
  lemma BuildingCallsOf(created: Effect, v: ViewId, index: int, page: PageRequest, direction: int,
                        flagged: seq<Effect>)
    requires created.Created? && created.view == v
    requires forall e :: e in flagged ==> e == SetCached(v, true)
    ensures var effects := [created, Render(v), OpenPage(v, index, page, direction)] + flagged;
      && (forall e :: e in effects ==> e.view == v)
      && Render(v) in effects && BuildingCalls(effects) && CallbackFree(effects)
  {
  }

  // ---------------------------------------------------------------------------
  // Eviction

  lemma SubsequenceKeep<T>(x: T, a: seq<T>, b: seq<T>)
    requires Subsequence(a, b)
    ensures Subsequence([x] + a, [x] + b)
  {
    assert ([x] + a)[1..] == a;
    assert ([x] + b)[1..] == b;
  }

  lemma SubsequenceSkip<T>(x: T, a: seq<T>, b: seq<T>)
    requires Subsequence(a, b)
    ensures Subsequence(a, [x] + b)
  {
    assert ([x] + b)[1..] == b;
  }

  /** Whatever a subsequence holds, the sequence holds. */
  lemma {:induction false} SubsequenceMembers<T>(a: seq<T>, b: seq<T>)
    requires Subsequence(a, b)
    ensures forall x :: x in a ==> x in b
    decreases |b|
  {
    if |a| == 0 {
    } else if a[0] == b[0] && Subsequence(a[1..], b[1..]) {
      SubsequenceMembers(a[1..], b[1..]);
      assert a == [a[0]] + a[1..] && b == [b[0]] + b[1..];
    } else {
      SubsequenceMembers(a, b[1..]);
      assert b == [b[0]] + b[1..];
    }
  }

  /** Dropping elements from a list without repeats leaves a list without repeats. */
  lemma {:induction false} SubsequenceDistinct<T>(a: seq<T>, b: seq<T>)
    requires Subsequence(a, b) && Distinct(b)
    ensures Distinct(a)
    decreases |b|
  {
    if |a| == 0 {
    } else if a[0] == b[0] && Subsequence(a[1..], b[1..]) {
      SubsequenceDistinct(a[1..], b[1..]);
      SubsequenceMembers(a[1..], b[1..]);
      forall p, q | 0 <= p < q < |a|
        ensures a[p] != a[q]
      {
        assert a[q] == a[1..][q - 1];
        if p == 0 {
          assert a[q] in a[1..];
          var j :| 0 <= j < |b[1..]| && b[1..][j] == a[q];
          assert b[j + 1] == a[q];
        } else {
          assert a[p] == a[1..][p - 1];
        }
      }
    } else {
      SubsequenceDistinct(a, b[1..]);
    }
  }

  /** In a list without repeats, a subsequence is determined by its members. */
  lemma {:induction false} SubsequenceUnique<T>(a: seq<T>, b: seq<T>, c: seq<T>)
    requires Subsequence(a, c) && Subsequence(b, c) && Distinct(c)
    requires forall x :: x in a <==> x in b
    ensures a == b
    decreases |c|
  {
    if |c| > 0 {
      SubsequenceMembers(a, c);
      SubsequenceMembers(b, c);
      var rest := c[1..];
      assert c[0] !in rest;
      SubsequenceHead(a, c);
      SubsequenceHead(b, c);
      if c[0] in a {
        SubsequenceDistinct(a, c);
        SubsequenceDistinct(b, c);
        forall x
          ensures x in a[1..] <==> x in b[1..]
        {
          DropHead(a, x);
          DropHead(b, x);
        }
        SubsequenceUnique(a[1..], b[1..], rest);
        assert a == [a[0]] + a[1..] && b == [b[0]] + b[1..];
      } else {
        SubsequenceUnique(a, b, rest);
      }
    }
  }

  /** A subsequence holds the head of a list without repeats only as its own head. */
  lemma SubsequenceHead<T>(a: seq<T>, c: seq<T>)
    requires Subsequence(a, c) && |c| > 0 && c[0] !in c[1..]
    ensures c[0] in a ==> |a| > 0 && a[0] == c[0] && Subsequence(a[1..], c[1..])
    ensures c[0] !in a ==> Subsequence(a, c[1..])
  {
    if |a| > 0 && !(a[0] == c[0] && Subsequence(a[1..], c[1..])) {
      SubsequenceMembers(a, c[1..]);
    }
  }

  /** Without repeats, the tail holds exactly the members other than the head. */
  lemma DropHead<T>(a: seq<T>, x: T)
    requires |a| > 0 && Distinct(a)
    ensures x in a[1..] <==> x in a && x != a[0]
  {
    if x in a {
      var j :| 0 <= j < |a| && a[j] == x;
      if j > 0 {
        assert a[1..][j - 1] == x;
      }
    }
  }

  /** Splits ids into those whose first loaded item lies within the window and the rest. */
  function SplitByWindow(views: map<ViewId, View>, ids: seq<ViewId>, center: int)
    : (r: (seq<ViewId>, seq<ViewId>))
    requires Tracked(views, ids)
    ensures Tracked(views, r.0) && Tracked(views, r.1)
    ensures forall k :: 0 <= k < |r.0| ==> InWindow(views, r.0[k], center)
    ensures forall k :: 0 <= k < |r.1| ==> !InWindow(views, r.1[k], center)
    ensures Subsequence(r.0, ids) && Subsequence(r.1, ids)
    ensures |r.0| + |r.1| == |ids|
    ensures forall k :: 0 <= k < |ids| ==> ids[k] in r.0 || ids[k] in r.1
    decreases |ids|
  {
    if |ids| == 0 then ([], [])
    else
      var x := ids[0];
      var rest := SplitByWindow(views, ids[1..], center);
      assert ids == [x] + ids[1..];
      if InWindow(views, x, center) then
        SubsequenceKeep(x, rest.0, ids[1..]);
        SubsequenceSkip(x, rest.1, ids[1..]);
        ([x] + rest.0, rest.1)
      else
        SubsequenceSkip(x, rest.0, ids[1..]);
        SubsequenceKeep(x, rest.1, ids[1..]);
        (rest.0, [x] + rest.1)
  }

  /** One `remove()` per id: the effects are removals addressed to exactly the ids, in order. */
  function Removals(ids: seq<ViewId>): (effects: seq<Effect>)
    ensures |effects| == |ids|
    ensures forall k :: 0 <= k < |ids| ==> effects[k] == Remove(ids[k])
    ensures Targets(effects) == ids
    decreases |ids|
  {
    if |ids| == 0 then [] else [Remove(ids[0])] + Removals(ids[1..])
  }

  /**
   * Prunes the cache around `center`: the views whose first loaded item is
   * more than three spine positions away are removed (each receives one
   * `remove()`, in cache order) and dropped from the list; the others stay,
   * in their original order. Nothing else changes, the iframe table included.
   * With the cache list free of repeats, these facts fix both the kept list
   * and the removals (see `ExpireKeepsExactly`, `ExpireRemovesExactly`).
   */
  function Expire(m: Manager, center: int): (r: Step)
    requires m.Valid()
    ensures r.state.Valid()
    ensures r.state == m.(cache := r.state.cache)
    ensures forall k :: 0 <= k < |r.state.cache| ==> InWindow(m.views, r.state.cache[k], center)
    ensures Subsequence(r.state.cache, m.cache)
    ensures forall k :: 0 <= k < |m.cache| && InWindow(m.views, m.cache[k], center)
              ==> m.cache[k] in r.state.cache
    ensures forall k :: 0 <= k < |m.cache| && !InWindow(m.views, m.cache[k], center)
              ==> Remove(m.cache[k]) in r.effects && m.cache[k] !in r.state.cache
    ensures forall e :: e in r.effects ==>
              e.Remove? && e.view in m.cache && !InWindow(m.views, e.view, center)
    ensures |r.effects| + |r.state.cache| == |m.cache|
  {
    var split := SplitByWindow(m.views, m.cache, center);
    SubsequenceDistinct(split.0, m.cache);
    SubsequenceMembers(split.0, m.cache);
    SubsequenceMembers(split.1, m.cache);
    Step(m.(cache := split.0), Removals(split.1))
  }

  /** The views pruning removes come in cache-list order. */
  lemma ExpireRemovesInOrder(m: Manager, center: int)
    requires m.Valid()
    ensures Subsequence(Targets(Expire(m, center).effects), m.cache)
  {
    var split := SplitByWindow(m.views, m.cache, center);
  }

  /**
   * Pruning keeps exactly the in-window views, in cache-list order: any
   * list drawn from the cache list in order, holding just those views, is
   * the one pruning leaves.
   */
  lemma ExpireKeepsExactly(m: Manager, center: int, kept: seq<ViewId>)
    requires m.Valid()
    requires Subsequence(kept, m.cache)
    requires forall x :: x in kept <==> x in m.cache && InWindow(m.views, x, center)
    ensures Expire(m, center).state.cache == kept
  {
    var r := Expire(m, center);
    SubsequenceMembers(r.state.cache, m.cache);
    forall x
      ensures x in kept <==> x in r.state.cache
    {
      if x in r.state.cache {
        var k :| 0 <= k < |r.state.cache| && r.state.cache[k] == x;
      }
      if x in m.cache && InWindow(m.views, x, center) {
        var k :| 0 <= k < |m.cache| && m.cache[k] == x;
      }
    }
    SubsequenceUnique(kept, r.state.cache, m.cache);
  }

  /**
   * Pruning removes exactly the out-of-window views, once each and in
   * cache-list order: any list drawn from the cache list in order, holding
   * just those views, is the list of views the removals go to.
   */
  lemma ExpireRemovesExactly(m: Manager, center: int, removed: seq<ViewId>)
    requires m.Valid()
    requires Subsequence(removed, m.cache)
    requires forall x :: x in removed <==> x in m.cache && !InWindow(m.views, x, center)
    ensures Targets(Expire(m, center).effects) == removed
  {
    var r := Expire(m, center);
    var targets := Targets(r.effects);
    ExpireRemovesInOrder(m, center);
    forall x
      ensures x in removed <==> x in targets
    {
      if x in targets {
        var k :| 0 <= k < |targets| && targets[k] == x;
        assert r.effects[k] in r.effects;
      }
      if x in m.cache && !InWindow(m.views, x, center) {
        var k :| 0 <= k < |m.cache| && m.cache[k] == x;
        assert Remove(x) in r.effects;
        var j :| 0 <= j < |r.effects| && r.effects[j] == Remove(x);
        assert targets[j] == x;
      }
    }
    SubsequenceUnique(removed, targets, m.cache);
  }

  // ---------------------------------------------------------------------------
  // Construction, prefetch and admission registration

  /**
   * Builds a view for a spine item: its class follows the deduced view type,
   * it has loaded nothing yet and is not flagged cached. The creation
   * parameters it is built with are the given ones with the manager's
   * current viewer settings filled in (the source writes them into the very
   * object it was handed). Nothing but the view table changes.
   */
  function CreateViewForItem(m: Manager, item: SpineItem, params: CreationParams): (r: ViewResult)
    requires m.Valid()
    ensures r.state.Valid()
    ensures r.view == m.nextId && r.view !in m.views && r.view in r.state.views
    ensures r.state.views == m.views[r.view := r.state.views[r.view]]
    ensures r.state == m.(views := r.state.views, nextId := r.view + 1)
    ensures r.params == params.(viewSettings := m.viewerSettings)
    ensures r.state.views[r.view].params == r.params
    ensures r.state.views[r.view].loaded == [] && !r.state.views[r.view].cached
    ensures ViewTypeForView(Some(r.state.views[r.view].variant))
            == Some(DeduceDesiredViewType(item, Settings(params.scroll)))
    ensures |r.effects| == 1 && r.effects[0].Created? && r.effects[0].view == r.view
    ensures r.effects[0].overflow == OverflowAuto
            <==> DeduceDesiredViewType(item, Settings(params.scroll)) == Fixed
  {
    var built := CreateViewForType(DeduceDesiredViewType(item, Settings(params.scroll)));
    var p := params.(viewSettings := m.viewerSettings);
    var id := m.nextId;
    ViewResult(
      m.(views := m.views[id := View(id, [], built.variant, false, p)], nextId := id + 1),
      id, [Created(id, built.variant, built.overflow)], p)
  }

  /** Setting a view's `cached` flag keeps the state invariant. */
  lemma FlagKeepsValid(m: Manager, id: ViewId, flag: bool)
    requires m.Valid() && id in m.views
    ensures m.(views := m.views[id := m.views[id].(cached := flag)]).Valid()
  {
    var s := m.(views := m.views[id := m.views[id].(cached := flag)]);
    assert forall k :: 0 <= k < |m.cache| ==> s.views[m.cache[k]].loaded == m.views[m.cache[k]].loaded;
  }

  /** The page a prefetched view is opened to: the last page for "last", else the first. */
  function PrefetchPage(setToPage: PageRequest): PageRequest
  {
    if setToPage == LastPage then LastPage else FirstPage
  }

  /** The open direction passed along with a prefetch page request. */
  function PrefetchDirection(setToPage: PageRequest): int
  {
    if setToPage == LastPage then 1 else 2
  }

  /**
   * Returns the cached view for the item if there is one, unchanged; else
   * builds a prefetched view for it (`BuildPrefetched`).
   */
  function CreatePrefetchedViewForSpineItem(m: Manager, item: SpineItem, setToPage: PageRequest,
                                            params: CreationParams): (r: ViewResult)
    requires m.Valid()
    ensures r.state.Valid()
    ensures IsCached(m, item.index) ==>
      r.state == m && Some(r.view) == Lookup(m, item.index) && r.effects == []
    ensures !IsCached(m, item.index) ==> r == BuildPrefetched(m, item, setToPage, params)
    ensures r.state == m.(views := r.state.views, nextId := r.state.nextId)
    ensures CallbackFree(r.effects)
  {
    match Lookup(m, item.index)
    case Some(v) => ViewResult(m, v, [], params)
    case None => BuildPrefetched(m, item, setToPage, params)
  }

  /**
   * Builds a view for an item that is not cached, renders it, opens it to
   * the item's first or last page and flags it cached. Every call goes to
   * the view just built, whose class follows the deduced view type, and
   * none shows, hides, detaches or removes it. Building a view never puts it
   * in the cache list.
   */
  function BuildPrefetched(m: Manager, item: SpineItem, setToPage: PageRequest,
                           params: CreationParams): (r: ViewResult)
    requires m.Valid()
    ensures r.state.Valid()
    ensures r.view == m.nextId && r.view !in m.views && r.view in r.state.views
    ensures r.state.views == m.views[r.view := r.state.views[r.view]]
    ensures r.state == m.(views := r.state.views, nextId := r.state.nextId)
    ensures r.state.views[r.view].cached
    ensures r.state.views[r.view].params == params.(viewSettings := m.viewerSettings)
    ensures |r.state.views| == |m.views| + 1
    ensures ViewTypeForView(Some(r.state.views[r.view].variant))
            == Some(DeduceDesiredViewType(item, Settings(params.scroll)))
    ensures OpenRequests(r.effects) == [OpenRequest(item.index, PrefetchPage(setToPage), PrefetchDirection(setToPage))]
    ensures forall e :: e in r.effects ==> e.view == r.view
    ensures Render(r.view) in r.effects && BuildingCalls(r.effects)
    ensures CallbackFree(r.effects)
  {
    var built := CreateViewForItem(m, item, params);
    var id := built.view;
    var s := built.state.(views := built.state.views[id := built.state.views[id].(cached := true)]);
    FlagKeepsValid(built.state, id, true);
    var effects := [built.effects[0], Render(id),
                    OpenPage(id, item.index, PrefetchPage(setToPage), PrefetchDirection(setToPage)),
                    SetCached(id, true)];
    BuildingCallsOf(built.effects[0], id, item.index, PrefetchPage(setToPage), PrefetchDirection(setToPage),
                    [SetCached(id, true)]);
    assert effects == [built.effects[0], Render(id),
                       OpenPage(id, item.index, PrefetchPage(setToPage), PrefetchDirection(setToPage))]
                      + [SetCached(id, true)];
    OpenRequestsOfPrefetch(built.effects[0], id, item.index, PrefetchPage(setToPage), PrefetchDirection(setToPage));
    ViewResult(s, id, effects, built.params)
  }

  /**
   * Registers the admission listener of a view; a missing view is ignored.
   * The view is one just built, so it is known and not yet cached.
   * Admission happens only on the load event: registering keeps the
   * invariant and adds this view's admission listener, and nothing else
   * changes: not the views, the cache list, the iframe table, the other
   * listeners or the queue of deferred callbacks.
   */
  function SaveViewOnceLoaded(m: Manager, view: Option<ViewId>): (r: Manager)
    requires m.Valid()
    requires view.Some? ==> view.value in m.views && view.value !in m.cache
    ensures r.Valid()
    ensures r == m.(admitting := r.admitting)
    ensures view.None? ==> r == m
    ensures m.admitting <= r.admitting
    ensures forall id :: id in r.admitting && id !in m.admitting ==> view == Some(id)
    ensures view.Some? ==> view.value in r.admitting
  {
    match view
    case None => m
    case Some(v) => m.(admitting := m.admitting + {v})
  }

  /** The neighbour distance: the number of items the current view shows, 1 without one. */
  function Distance(m: Manager, current: Option<ViewId>): nat
    requires current.Some? ==> current.value in m.views
  {
    match current
    case None => 1
    case Some(c) => |m.views[c].loaded|
  }

  /**
   * `s` is `m` after prefetching with `params`: only views were added (old
   * ones untouched), each flagged cached, built with `params` plus the
   * manager's viewer settings, and waiting for admission; the cache list,
   * the iframe table and every other part of the state are as they were.
   */
  ghost predicate Prefetched(m: Manager, s: Manager, params: CreationParams)
  {
    && s.Valid()
    && s == m.(views := s.views, nextId := s.nextId, admitting := s.admitting)
    && (forall id :: id in m.views ==> id in s.views && s.views[id] == m.views[id])
    && (forall id :: id in s.views && id !in m.views ==>
          && s.views[id].cached
          && s.views[id].params == params.(viewSettings := m.viewerSettings)
          && id in s.admitting)
    && m.admitting <= s.admitting
    && (forall id :: id in s.admitting && id !in m.admitting ==> id !in m.views)
  }

  /** Prefetching leaves the cached views' holdings, and so every lookup, alone. */
  lemma PrefetchedKeepsLookup(m: Manager, s: Manager, params: CreationParams, x: int)
    requires m.Valid() && Prefetched(m, s, params)
    ensures Lookup(s, x) == Lookup(m, x) && IsCached(s, x) == IsCached(m, x)
  {
    assert SameHoldings(m, s) by {
      forall k, y | 0 <= k < |m.cache|
        ensures Holds(m.views, m.cache[k], y) == Holds(s.views, m.cache[k], y)
      {
        assert m.cache[k] in m.views;
      }
    }
    LookupAgrees(m, s, x);
  }

  lemma PrefetchedTransitive(a: Manager, b: Manager, c: Manager, params: CreationParams)
    requires Prefetched(a, b, params) && Prefetched(b, c, params)
    ensures Prefetched(a, c, params)
  {
    assert b.viewerSettings == a.viewerSettings;
    forall id | id in c.views && id !in a.views
      ensures c.views[id].cached && c.views[id].params == params.(viewSettings := a.viewerSettings)
      ensures id in c.admitting
    {
      if id in b.views {
        assert c.views[id] == b.views[id];
        assert id in b.admitting && b.admitting <= c.admitting;
      }
    }
  }

  /** Spine position `k` exists and the item there is not held by any cached view. */
  predicate NeighbourWanted(m: Manager, k: int)
  {
    0 <= k < |m.spine| && !IsCached(m, m.spine[k].index)
  }

  /** The page-open request prefetching spine position `k` makes, if it is wanted. */
  function Prefetches(m: Manager, k: int, page: PageRequest, direction: int): seq<OpenRequest>
  {
    if NeighbourWanted(m, k) then [OpenRequest(m.spine[k].index, page, direction)] else []
  }

  /**
   * Prefetches spine position `k` if it exists and is not cached: builds the
   * view, renders it and registers it for admission on load.
   */
  function PrefetchNeighbour(m: Manager, k: int, setToPage: PageRequest, params: CreationParams): (r: Step)
    requires m.Valid()
    ensures Prefetched(m, r.state, params)
    ensures !NeighbourWanted(m, k) ==> r.state == m && r.effects == []
    ensures NeighbourWanted(m, k) ==>
      && m.nextId !in m.views
      && r.state.views.Keys == m.views.Keys + {m.nextId}
      && r.state.admitting == m.admitting + {m.nextId}
      && |r.state.views| == |m.views| + 1
    ensures NeighbourWanted(m, k) ==>
      ViewTypeForView(Some(r.state.views[m.nextId].variant))
        == Some(DeduceDesiredViewType(m.spine[k], Settings(params.scroll)))
    ensures OpenRequests(r.effects) == Prefetches(m, k, PrefetchPage(setToPage), PrefetchDirection(setToPage))
    ensures AddressedToNew(r.effects, m, r.state)
    ensures BuildingCalls(r.effects) && RendersNew(r.effects, m, r.state)
    ensures CallbackFree(r.effects)
  {
    if NeighbourWanted(m, k) then
      var built := CreatePrefetchedViewForSpineItem(m, m.spine[k], setToPage, params);
      RegisteredIsPrefetched(m, m.spine[k], setToPage, params);
      Step(SaveViewOnceLoaded(built.state, Some(built.view)), built.effects)
    else
      Step(m, [])
  }

  /** A freshly built prefetched view, once registered for admission, is a prefetch step. */
  lemma RegisteredIsPrefetched(m: Manager, item: SpineItem, setToPage: PageRequest, params: CreationParams)
    requires m.Valid()
    ensures var built := BuildPrefetched(m, item, setToPage, params);
      && built.view !in built.state.cache
      && Prefetched(m, SaveViewOnceLoaded(built.state, Some(built.view)), params)
      && BuildingCalls(built.effects)
      && RendersNew(built.effects, m, SaveViewOnceLoaded(built.state, Some(built.view)))
  {
  }

  /**
   * Prefetches the neighbours of the item at distance d (see `Distance`): the
   * item d positions to the right, opened to its first page, and the item d
   * positions to the left, opened to its last page, each only when it exists
   * and is not cached. Prefetched views are flagged cached and built with a
   * copy of the caller's parameters tagged `cachedView` and rendered; they
   * wait for their load event and are not in the cache list. No view is
   * shown, hidden or removed here.
   */
  function CacheNeighbours(m: Manager, item: SpineItem, current: Option<ViewId>,
                           params: CreationParams): (r: Step)
    requires m.Valid()
    requires current.Some? ==> current.value in m.views
    ensures Prefetched(m, r.state, params.(cachedView := true))
    ensures CallbackFree(r.effects)
    ensures AddressedToNew(r.effects, m, r.state)
    ensures BuildingCalls(r.effects) && RendersNew(r.effects, m, r.state)
    ensures OpenRequests(r.effects)
      == Prefetches(m, item.index + Distance(m, current), FirstPage, 2)
         + Prefetches(m, item.index - Distance(m, current), LastPage, 1)
  {
    PrefetchBoth(m, item.index + Distance(m, current), item.index - Distance(m, current), params.(cachedView := true))
  }

  /** Prefetches spine position `right` to its first page, then `left` to its last page. */
  function PrefetchBoth(m: Manager, right: int, left: int, params: CreationParams): (r: Step)
    requires m.Valid()
    ensures Prefetched(m, r.state, params)
    ensures CallbackFree(r.effects)
    ensures AddressedToNew(r.effects, m, r.state)
    ensures BuildingCalls(r.effects) && RendersNew(r.effects, m, r.state)
    ensures OpenRequests(r.effects) == Prefetches(m, right, FirstPage, 2) + Prefetches(m, left, LastPage, 1)
  {
    var first := PrefetchNeighbour(m, right, FirstPage, params);
    var second := PrefetchNeighbour(first.state, left, LastPage, params);
    PrefetchedTransitive(m, first.state, second.state, params);
    AddressedToNewAppend(first.effects, second.effects, m, first.state, second.state);
    BuildingAppend(first.effects, second.effects, m, first.state, second.state);
    NeighboursOpen(m, first.state, params, first.effects, second.effects, right, left);
    Step(second.state, first.effects + second.effects)
  }

  /** The two neighbours' requests, in order, with the left one judged against the original state. */
  lemma NeighboursOpen(m: Manager, s: Manager, local: CreationParams, re: seq<Effect>, le: seq<Effect>,
                       kr: int, kl: int)
    requires m.Valid() && Prefetched(m, s, local)
    requires OpenRequests(re) == Prefetches(m, kr, PrefetchPage(FirstPage), PrefetchDirection(FirstPage))
    requires OpenRequests(le) == Prefetches(s, kl, PrefetchPage(LastPage), PrefetchDirection(LastPage))
    ensures OpenRequests(re + le) == Prefetches(m, kr, FirstPage, 2) + Prefetches(m, kl, LastPage, 1)
  {
    RightKeepsLeftWanted(m, s, local, kl);
    OpenRequestsAppend(re, le);
  }

  /** Prefetching the right neighbour leaves the left neighbour exactly as wanted as before. */
  lemma RightKeepsLeftWanted(m: Manager, s: Manager, local: CreationParams, k: int)
    requires m.Valid() && Prefetched(m, s, local)
    ensures Prefetches(s, k, LastPage, 1) == Prefetches(m, k, LastPage, 1)
  {
    if 0 <= k < |m.spine| {
      PrefetchedKeepsLookup(m, s, local, m.spine[k].index);
    }
  }

  // ---------------------------------------------------------------------------
  // The request

  /**
   * Retires the current view, if any: hides it, flags it cached and strips
   * its listeners, which cancels a pending admission and a pending creation
   * callback. What it has loaded is untouched.
   */
  function Detach(m: Manager, current: Option<ViewId>): (r: Step)
    requires m.Valid()
    requires current.Some? ==> current.value in m.views
    ensures r.state.Valid()
    ensures r.state.views.Keys == m.views.Keys && r.state.cache == m.cache
    ensures forall id :: id in m.views ==> r.state.views[id].loaded == m.views[id].loaded
    ensures current.None? ==> r.state == m && r.effects == []
    ensures current.Some? ==>
      && r.effects == [Hide(current.value), SetCached(current.value, true), Off(current.value)]
      && r.state.views[current.value].cached
      && r.state.admitting == m.admitting - {current.value}
      && r.state.awaiting == m.awaiting - {current.value}
    ensures r.state == m.(views := r.state.views, admitting := r.state.admitting, awaiting := r.state.awaiting)
    ensures CallbackFree(r.effects)
  {
    match current
    case None => Step(m, [])
    case Some(c) =>
      Step(m.(views := m.views[c := m.views[c].(cached := true)],
              admitting := m.admitting - {c},
              awaiting := m.awaiting - {c}),
           [Hide(c), SetCached(c, true), Off(c)])
  }

  /** The current view as a set, for stating what detaching it removes. */
  function Retired(current: Option<ViewId>): set<ViewId>
  {
    match current
    case None => {}
    case Some(c) => {c}
  }

  /**
   * The bookkeeping a request does around its lookup: prefetch the
   * neighbours, then prune the cache around the item. The cache list only
   * shrinks, the views it keeps lie within the window, no view forgets what
   * it has loaded and the only new admission listeners belong to new views.
   */
  function Refresh(m: Manager, item: SpineItem, current: Option<ViewId>, params: CreationParams): (r: Step)
    requires m.Valid()
    requires current.Some? ==> current.value in m.views
    ensures r.state.Valid()
    ensures r.state == m.(views := r.state.views, nextId := r.state.nextId, admitting := r.state.admitting,
                          cache := r.state.cache)
    ensures Subsequence(r.state.cache, m.cache)
    ensures forall k :: 0 <= k < |r.state.cache| ==> InWindow(r.state.views, r.state.cache[k], item.index)
    ensures forall id :: id in m.views ==> id in r.state.views && r.state.views[id] == m.views[id]
    ensures m.admitting <= r.state.admitting
    ensures forall id :: id in r.state.admitting && id !in m.admitting ==> id !in m.views
    ensures CallbackFree(r.effects)
  {
    var neighbours := CacheNeighbours(m, item, current, params);
    var expired := Expire(neighbours.state, item.index);
    CallbackFreeAppend(neighbours.effects, expired.effects);
    Step(expired.state, neighbours.effects + expired.effects)
  }

  /**
   * The calls that hand a cached view back: unflag, show, apply the
   * settings, replay the load event, call back. All go to `v`, none hides or
   * removes it, and only the last is a callback.
   */
  lemma ReusingCalls(v: ViewId, settings: Settings, iframe: Option<Iframe>, index: int, callback: CallbackId)
    ensures var effects := [SetCached(v, false), Show(v), ApplySettings(v, settings),
                            Trigger(v, iframe, index), Callback(callback, false, v)];
      && (forall e :: e in effects ==> e.view == v)
      && Hide(v) !in effects && Remove(v) !in effects
      && (forall k :: 0 <= k < 4 ==> !effects[k].Callback?)
  {
  }

  /**
   * Cache hit: the found view is unflagged, shown, given the settings and a
   * synthetic load event carrying the iframe recorded for the item, and then
   * handed to the callback as not new, synchronously and exactly once. Every
   * call goes to that view and none hides or removes it. The caller's
   * creation parameters are left as they came.
   */
  function Reuse(m: Manager, view: ViewId, item: SpineItem, settings: Settings,
                 params: CreationParams, callback: CallbackId): (r: ViewResult)
    requires m.Valid()
    requires view in m.views
    ensures r.state.Valid()
    ensures r.view == view && r.params == params
    ensures r.state == m.(views := m.views[view := m.views[view].(cached := false)])
    ensures |r.effects| > 0 && r.effects[|r.effects| - 1] == Callback(callback, false, view)
    ensures forall k :: 0 <= k < |r.effects| - 1 ==> !r.effects[k].Callback?
    ensures forall e :: e in r.effects ==> e.view == view
    ensures Hide(view) !in r.effects && Remove(view) !in r.effects
    ensures Show(view) in r.effects
    ensures ApplySettings(view, settings) in r.effects
    ensures Trigger(view, Get(m.iframes, item.index), item.index) in r.effects
  {
    var effects := [SetCached(view, false), Show(view), ApplySettings(view, settings),
                    Trigger(view, Get(m.iframes, item.index), item.index),
                    Callback(callback, false, view)];
    FlagKeepsValid(m, view, false);
    ReusingCalls(view, settings, Get(m.iframes, item.index), item.index, callback);
    ViewResult(m.(views := m.views[view := m.views[view].(cached := false)]), view, effects, params)
  }

  /**
   * Cache miss: a fresh view of the class the deduced view type calls for
   * is built, registered for admission, rendered and opened to the item;
   * every call goes to that view; its creation callback is registered to wait for
   * the view's load event. No callback runs now and the cache list is not
   * touched.
   */
  function OpenNew(m: Manager, item: SpineItem, params: CreationParams, callback: CallbackId): (r: ViewResult)
    requires m.Valid()
    ensures r.state.Valid()
    ensures r.view !in m.views && r.view in r.state.views
    ensures r.view in r.state.admitting && r.view !in r.state.cache
    ensures forall id :: id in m.views ==> id in r.state.views && r.state.views[id] == m.views[id]
    ensures r.state == m.(views := r.state.views, nextId := r.state.nextId, admitting := m.admitting + {r.view},
                          awaiting := m.awaiting[r.view := callback])
    ensures r.params == params.(viewSettings := m.viewerSettings)
    ensures r.state.views[r.view].params == r.params
    ensures ViewTypeForView(Some(r.state.views[r.view].variant))
            == Some(DeduceDesiredViewType(item, Settings(params.scroll)))
    ensures forall e :: e in r.effects ==> e.view == r.view
    ensures Render(r.view) in r.effects && BuildingCalls(r.effects)
    ensures CallbackFree(r.effects)
    ensures OpenPage(r.view, item.index, DefaultPage, 0) in r.effects
  {
    var built := CreateViewForItem(m, item, params);
    var v := built.view;
    var registered := SaveViewOnceLoaded(built.state, Some(v));
    BuildingCallsOf(built.effects[0], v, item.index, DefaultPage, 0, []);
    ViewResult(registered.(awaiting := registered.awaiting[v := callback]), v,
               [built.effects[0], Render(v), OpenPage(v, item.index, DefaultPage, 0)] + [],
               built.params)
  }

  /**
   * A request for a view of `item`. The current view is retired first. Then
   * the cache is consulted, the neighbours are prefetched and the cache is
   * pruned around the item; what was found is reused (`Reuse`), otherwise a
   * new view is opened (`OpenNew`). The result is the view handed to the
   * callback, and the caller's creation parameters as the call leaves them:
   * written into on a miss, untouched on a hit. A request never adds to the
   * cache list.
   */
  function Request(m: Manager, item: SpineItem, current: Option<ViewId>, settings: Settings,
                   params: CreationParams, callback: CallbackId): (r: ViewResult)
    requires m.Valid()
    requires current.Some? ==> current.value in m.views
    ensures r.state.Valid()
    ensures r.state.viewerSettings == Some(settings)
    ensures r.state.iframes == m.iframes && r.state.deferred == m.deferred
    ensures Subsequence(r.state.cache, m.cache)
    ensures forall id :: id in m.views ==> id in r.state.views && r.state.views[id].loaded == m.views[id].loaded
  {
    var detached := Detach(m.(viewerSettings := Some(settings)), current);
    var found := Lookup(detached.state, item.index);
    var refreshed := Refresh(detached.state, item, current, params);
    var answer := Respond(refreshed.state, found, item, settings, params, callback);
    ViewResult(answer.state, answer.view, detached.effects + refreshed.effects + answer.effects, answer.params)
  }

  /**
   * The lookup's outcome decides between reusing the found view and opening
   * a new one. A found view is called back exactly once, as the last
   * effect; a new view is not called back at all, and waits for admission
   * outside the cache list.
   */
  function Respond(m: Manager, found: Option<ViewId>, item: SpineItem, settings: Settings,
                   params: CreationParams, callback: CallbackId): (r: ViewResult)
    requires m.Valid()
    requires found.Some? ==> found.value in m.views
    ensures r.state.Valid() && r.state.cache == m.cache
    ensures forall id :: id in m.views ==> id in r.state.views && r.state.views[id].loaded == m.views[id].loaded
    ensures found.Some? ==>
      && r.view == found.value && |r.effects| > 0
      && r.effects[|r.effects| - 1] == Callback(callback, false, r.view)
      && forall k :: 0 <= k < |r.effects| - 1 ==> !r.effects[k].Callback?
    ensures found.None? ==> CallbackFree(r.effects)
    ensures found.None? ==>
      && r.view !in m.views && r.view in r.state.views
      && r.view in r.state.admitting && r.view !in r.state.cache
  {
    match found
    case Some(v) => Reuse(m, v, item, settings, params, callback)
    case None => OpenNew(m, item, params, callback)
  }

  // ---------------------------------------------------------------------------
  // The load event and the deferred callback

  /**
   * The "content document loaded" event of view `id`, carrying an iframe and
   * the index of the spine item it loaded; `loaded` is what the view now
   * reports holding. If the view waits for admission, it is admitted exactly
   * when no cached view holds its first loaded item: it is appended to the
   * cache list and the iframe is recorded under the event's index; otherwise
   * nothing is admitted or recorded. A pending creation callback is queued.
   * Both listeners are consumed.
   */
  function LoadCompleted(m: Manager, id: ViewId, iframe: Iframe, spineIndex: int, loaded: seq<int>): (r: Manager)
    requires m.Valid()
    requires id in m.views
    requires |loaded| > 0
    ensures r.Valid()
    ensures r.views == m.views[id := m.views[id].(loaded := loaded)]
    ensures r.admitting == m.admitting - {id} && id !in r.awaiting
    ensures id in m.admitting && !IsCached(m, loaded[0]) ==>
      r.cache == m.cache + [id] && r.iframes == m.iframes[spineIndex := iframe]
    ensures !(id in m.admitting && !IsCached(m, loaded[0])) ==>
      r.cache == m.cache && r.iframes == m.iframes
    ensures id in m.awaiting ==>
      r.awaiting == m.awaiting - {id} && r.deferred == m.deferred + [Deferred(m.awaiting[id], id)]
    ensures id !in m.awaiting ==> r.awaiting == m.awaiting && r.deferred == m.deferred
    ensures r.spine == m.spine && r.viewerSettings == m.viewerSettings && r.nextId == m.nextId
  {
    var reported := m.(views := m.views[id := m.views[id].(loaded := loaded)]);
    assert id in m.admitting ==> IsCached(reported, loaded[0]) == IsCached(m, loaded[0]) by {
      if id in m.admitting {
        forall k | 0 <= k < |m.cache|
          ensures Holds(reported.views, m.cache[k], loaded[0]) == Holds(m.views, m.cache[k], loaded[0])
        {
          assert m.cache[k] != id;
        }
      }
    }
    var admitted :=
      if id !in reported.admitting then reported
      else if Lookup(reported, loaded[0]).None? then
        DistinctAppend(reported.cache, id);
        reported.(admitting := reported.admitting - {id}, cache := reported.cache + [id],
                  iframes := reported.iframes[spineIndex := iframe])
      else reported.(admitting := reported.admitting - {id});
    if id in admitted.awaiting then
      admitted.(awaiting := admitted.awaiting - {id},
                deferred := admitted.deferred + [Deferred(admitted.awaiting[id], id)])
    else admitted
  }

  /**
   * Runs the oldest deferred creation callback, reporting its view as new;
   * with nothing deferred it does nothing. Only the queue changes, and it
   * keeps the invariant: the view handed to the callback is a known one.
   * Each step runs at most one callback and takes it off the queue, so every
   * queued callback runs exactly once, in the order the loads came in.
   */
  function Settle(m: Manager): (r: Step)
    requires m.Valid()
    ensures r.state.Valid()
    ensures r.state == m.(deferred := r.state.deferred)
    ensures |r.effects| <= 1 && |r.effects| + |r.state.deferred| == |m.deferred|
    ensures |m.deferred| > 0 ==> |r.effects| == 1
    ensures forall e :: e in r.effects ==> e.Callback? && e.isNew && e.view in m.views
    ensures forall k :: 0 <= k < |r.effects| ==>
              r.effects[k].callback == m.deferred[k].callback && r.effects[k].view == m.deferred[k].view
    ensures forall k :: 0 <= k < |r.state.deferred| ==> r.state.deferred[k] == m.deferred[k + |r.effects|]
  {
    if |m.deferred| == 0 then Step(m, [])
    else Step(m.(deferred := m.deferred[1..]), [Callback(m.deferred[0].callback, true, m.deferred[0].view)])
  }
}

=== FILE: view_manager_properties.dfy ===
/**
 * Properties of the view manager that relate several transitions or that
 * are stated about a whole request: what a request does on a hit and on a
 * miss, that the creation callback of a miss runs only after the view's load
 * event, that eviction is idempotent, and that no two cached views share
 * their first loaded item although they may share later ones.
 */
module ViewManagerProperties {
  import opened Options
  import opened ViewTypes
  import opened ViewManager

  // ---------------------------------------------------------------------------
  // The request protocol

  /** A callback-free prefix keeps a callback that comes last the only one. */
  lemma CallbackOnlyLast(a: seq<Effect>, b: seq<Effect>)
    requires CallbackFree(a) && |b| > 0
    requires forall k :: 0 <= k < |b| - 1 ==> !b[k].Callback?
    ensures forall k :: 0 <= k < |a + b| - 1 ==> !(a + b)[k].Callback?
  {
    forall k | 0 <= k < |a + b| - 1
      ensures !(a + b)[k].Callback?
    {
      if k >= |a| {
        assert (a + b)[k] == b[k - |a|];
      }
    }
  }

  /** Retiring the current view leaves the lookup's answer intact. */
  lemma DetachKeepsLookup(m: Manager, settings: Settings, current: Option<ViewId>, x: int)
    requires m.Valid()
    requires current.Some? ==> current.value in m.views
    ensures Lookup(Detach(m.(viewerSettings := Some(settings)), current).state, x) == Lookup(m, x)
  {
    var d := Detach(m.(viewerSettings := Some(settings)), current);
    assert SameHoldings(m, d.state) by {
      forall k, y | 0 <= k < |m.cache|
        ensures Holds(m.views, m.cache[k], y) == Holds(d.state.views, m.cache[k], y)
      {
        assert m.cache[k] in m.views;
      }
    }
    LookupAgrees(m, d.state, x);
  }

  /** Cache hit: the view found by the lookup is handed back un-flagged, and the caller's parameters are untouched. */
  lemma RequestHitView(m: Manager, item: SpineItem, current: Option<ViewId>, settings: Settings,
                       params: CreationParams, callback: CallbackId)
    requires m.Valid()
    requires current.Some? ==> current.value in m.views
    requires IsCached(m, item.index)
    ensures var r := Request(m, item, current, settings, params, callback);
      && Some(r.view) == Lookup(m, item.index)
      && r.view in r.state.views && !r.state.views[r.view].cached
      && r.params == params
  {
    DetachKeepsLookup(m, settings, current, item.index);
  }

  /** Cache hit: the call's last effect is the one callback, reporting the view as not new. */
  lemma RequestHitCallsBack(m: Manager, item: SpineItem, current: Option<ViewId>, settings: Settings,
                            params: CreationParams, callback: CallbackId)
    requires m.Valid()
    requires current.Some? ==> current.value in m.views
    requires IsCached(m, item.index)
    ensures var r := Request(m, item, current, settings, params, callback);
      |r.effects| > 0 && r.effects[|r.effects| - 1] == Callback(callback, false, r.view)
  {
    DetachKeepsLookup(m, settings, current, item.index);
  }

  /** Cache hit: no effect before the last one is a callback. */
  lemma RequestHitCallsBackOnce(m: Manager, item: SpineItem, current: Option<ViewId>, settings: Settings,
                                params: CreationParams, callback: CallbackId)
    requires m.Valid()
    requires current.Some? ==> current.value in m.views
    requires IsCached(m, item.index)
    ensures var r := Request(m, item, current, settings, params, callback);
      forall k :: 0 <= k < |r.effects| - 1 ==> !r.effects[k].Callback?
  {
    var detached := Detach(m.(viewerSettings := Some(settings)), current);
    DetachKeepsLookup(m, settings, current, item.index);
    var found := Lookup(detached.state, item.index);
    var refreshed := Refresh(detached.state, item, current, params);
    var answer := Respond(refreshed.state, found, item, settings, params, callback);
    CallbackFreeAppend(detached.effects, refreshed.effects);
    CallbackOnlyLast(detached.effects + refreshed.effects, answer.effects);
  }

  /** Cache hit: the found view is shown and given the viewer settings. */
  lemma RequestHitShows(m: Manager, item: SpineItem, current: Option<ViewId>, settings: Settings,
                        params: CreationParams, callback: CallbackId)
    requires m.Valid()
    requires current.Some? ==> current.value in m.views
    requires IsCached(m, item.index)
    ensures var r := Request(m, item, current, settings, params, callback);
      && Show(r.view) in r.effects && ApplySettings(r.view, settings) in r.effects
      && ShownAfterwards(r.effects, r.view)
  {
    var detached := Detach(m.(viewerSettings := Some(settings)), current);
    DetachKeepsLookup(m, settings, current, item.index);
    var found := Lookup(detached.state, item.index);
    var refreshed := Refresh(detached.state, item, current, params);
    var answer := Respond(refreshed.state, found, item, settings, params, callback);
    ShownUntouched(answer.effects, answer.view);
    ShownAfterwardsAppend(detached.effects + refreshed.effects, answer.effects, answer.view);
  }

  /** Cache hit: the only listeners removed are the current view's, and none is added. */
  lemma RequestHitListeners(m: Manager, item: SpineItem, current: Option<ViewId>, settings: Settings,
                            params: CreationParams, callback: CallbackId)
    requires m.Valid()
    requires current.Some? ==> current.value in m.views
    requires IsCached(m, item.index)
    ensures var r := Request(m, item, current, settings, params, callback);
      r.state.awaiting == m.awaiting - Retired(current)
  {
    var detached := Detach(m.(viewerSettings := Some(settings)), current);
    assert detached.state.awaiting == m.awaiting - Retired(current);
    DetachKeepsLookup(m, settings, current, item.index);
  }

  /** Cache hit, the three facts above together. */
  lemma RequestHit(m: Manager, item: SpineItem, current: Option<ViewId>, settings: Settings,
                   params: CreationParams, callback: CallbackId)
    requires m.Valid()
    requires current.Some? ==> current.value in m.views
    requires IsCached(m, item.index)
    ensures var r := Request(m, item, current, settings, params, callback);
      && Some(r.view) == Lookup(m, item.index)
      && r.view in r.state.views && !r.state.views[r.view].cached
      && |r.effects| > 0 && r.effects[|r.effects| - 1] == Callback(callback, false, r.view)
      && (forall k :: 0 <= k < |r.effects| - 1 ==> !r.effects[k].Callback?)
      && Show(r.view) in r.effects && ApplySettings(r.view, settings) in r.effects
      && ShownAfterwards(r.effects, r.view)
      && r.state.awaiting == m.awaiting - Retired(current)
      && r.params == params
  {
    RequestHitView(m, item, current, settings, params, callback);
    RequestHitCallsBack(m, item, current, settings, params, callback);
    RequestHitCallsBackOnce(m, item, current, settings, params, callback);
    RequestHitShows(m, item, current, settings, params, callback);
    RequestHitListeners(m, item, current, settings, params, callback);
  }

  /**
   * Cache miss: a view that did not exist before, of the class the deduced
   * view type calls for, is handed back, waiting for admission outside the
   * cache list, and the caller's parameters come back
   * with the viewer settings written into them, as the new view got them.
   */
  lemma RequestMissView(m: Manager, item: SpineItem, current: Option<ViewId>, settings: Settings,
                        params: CreationParams, callback: CallbackId)
    requires m.Valid()
    requires current.Some? ==> current.value in m.views
    requires !IsCached(m, item.index)
    ensures var r := Request(m, item, current, settings, params, callback);
      && r.view !in m.views && r.view in r.state.views
      && r.view in r.state.admitting && r.view !in r.state.cache
      && r.params == params.(viewSettings := Some(settings))
      && r.state.views[r.view].params == r.params
      && ViewTypeForView(Some(r.state.views[r.view].variant))
         == Some(DeduceDesiredViewType(item, Settings(params.scroll)))
  {
    DetachKeepsLookup(m, settings, current, item.index);
    var detached := Detach(m.(viewerSettings := Some(settings)), current);
    var refreshed := Refresh(detached.state, item, current, params);
    var created := OpenNew(refreshed.state, item, params, callback);
    assert created.view !in refreshed.state.cache;
  }

  /** Cache miss: the call runs no callback, renders the new view and opens it to the item's default page. */
  lemma RequestMissEffects(m: Manager, item: SpineItem, current: Option<ViewId>, settings: Settings,
                           params: CreationParams, callback: CallbackId)
    requires m.Valid()
    requires current.Some? ==> current.value in m.views
    requires !IsCached(m, item.index)
    ensures var r := Request(m, item, current, settings, params, callback);
      && CallbackFree(r.effects)
      && Render(r.view) in r.effects
      && OpenPage(r.view, item.index, DefaultPage, 0) in r.effects
  {
    DetachKeepsLookup(m, settings, current, item.index);
    var detached := Detach(m.(viewerSettings := Some(settings)), current);
    var refreshed := Refresh(detached.state, item, current, params);
    var created := OpenNew(refreshed.state, item, params, callback);
    CallbackFreeAppend(detached.effects, refreshed.effects);
    CallbackFreeAppend(detached.effects + refreshed.effects, created.effects);
  }

  /**
   * Cache miss: the current view's listeners are gone and the new view's
   * creation callback waits for its load event.
   */
  lemma RequestMissListeners(m: Manager, item: SpineItem, current: Option<ViewId>, settings: Settings,
                             params: CreationParams, callback: CallbackId)
    requires m.Valid()
    requires current.Some? ==> current.value in m.views
    requires !IsCached(m, item.index)
    ensures var r := Request(m, item, current, settings, params, callback);
      r.state.awaiting == (m.awaiting - Retired(current))[r.view := callback]
  {
    var detached := Detach(m.(viewerSettings := Some(settings)), current);
    assert detached.state.awaiting == m.awaiting - Retired(current);
    DetachKeepsLookup(m, settings, current, item.index);
  }

  /** Cache miss, the three facts above together. */
  lemma RequestMiss(m: Manager, item: SpineItem, current: Option<ViewId>, settings: Settings,
                    params: CreationParams, callback: CallbackId)
    requires m.Valid()
    requires current.Some? ==> current.value in m.views
    requires !IsCached(m, item.index)
    ensures var r := Request(m, item, current, settings, params, callback);
      && r.view !in m.views && r.view in r.state.views
      && CallbackFree(r.effects)
      && r.state.awaiting == (m.awaiting - Retired(current))[r.view := callback]
      && r.view in r.state.admitting && r.view !in r.state.cache
      && Render(r.view) in r.effects
      && OpenPage(r.view, item.index, DefaultPage, 0) in r.effects
      && r.params == params.(viewSettings := Some(settings))
      && r.state.views[r.view].params == r.params
      && ViewTypeForView(Some(r.state.views[r.view].variant))
         == Some(DeduceDesiredViewType(item, Settings(params.scroll)))
  {
    RequestMissView(m, item, current, settings, params, callback);
    RequestMissEffects(m, item, current, settings, params, callback);
    RequestMissListeners(m, item, current, settings, params, callback);
  }

  lemma PrefixOfThree(a: seq<Effect>, b: seq<Effect>, c: seq<Effect>)
    requires |a| == 3
    ensures |a + b + c| >= 3 && (a + b + c)[..3] == a
  {
    assert forall k :: 0 <= k < 3 ==> (a + b + c)[k] == a[k];
  }

  /**
   * Whatever the request, its first three effects hide the current view,
   * flag it cached and strip its listeners.
   */
  lemma RequestRetiresCurrentFirst(m: Manager, item: SpineItem, current: Option<ViewId>, settings: Settings,
                                   params: CreationParams, callback: CallbackId)
    requires m.Valid()
    requires current.Some? && current.value in m.views
    ensures var r := Request(m, item, current, settings, params, callback);
      && |r.effects| >= 3
      && r.effects[..3] == [Hide(current.value), SetCached(current.value, true), Off(current.value)]
  {
    var detached := Detach(m.(viewerSettings := Some(settings)), current);
    var found := Lookup(detached.state, item.index);
    var refreshed := Refresh(detached.state, item, current, params);
    var answer := Respond(refreshed.state, found, item, settings, params, callback);
    PrefixOfThree(detached.effects, refreshed.effects, answer.effects);
  }

  /**
   * Whatever the request, the retired view afterwards waits neither for
   * admission nor for a creation callback.
   */
  lemma RequestRetiresCurrentListeners(m: Manager, item: SpineItem, current: Option<ViewId>, settings: Settings,
                                       params: CreationParams, callback: CallbackId)
    requires m.Valid()
    requires current.Some? && current.value in m.views
    ensures var r := Request(m, item, current, settings, params, callback);
      current.value !in r.state.admitting && current.value !in r.state.awaiting
  {
    var detached := Detach(m.(viewerSettings := Some(settings)), current);
    var found := Lookup(detached.state, item.index);
    var refreshed := Refresh(detached.state, item, current, params);
    assert current.value !in refreshed.state.admitting;
    assert current.value !in refreshed.state.awaiting;
    var answer := Respond(refreshed.state, found, item, settings, params, callback);
  }

  /** The two facts above together. */
  lemma RequestRetiresCurrent(m: Manager, item: SpineItem, current: Option<ViewId>, settings: Settings,
                              params: CreationParams, callback: CallbackId)
    requires m.Valid()
    requires current.Some? && current.value in m.views
    ensures var r := Request(m, item, current, settings, params, callback);
      && |r.effects| >= 3
      && r.effects[..3] == [Hide(current.value), SetCached(current.value, true), Off(current.value)]
      && current.value !in r.state.admitting && current.value !in r.state.awaiting
  {
    RequestRetiresCurrentFirst(m, item, current, settings, params, callback);
    RequestRetiresCurrentListeners(m, item, current, settings, params, callback);
  }

  /** After any request every view left in the cache list lies within the window of the requested item. */
  lemma RequestPrunes(m: Manager, item: SpineItem, current: Option<ViewId>, settings: Settings,
                      params: CreationParams, callback: CallbackId)
    requires m.Valid()
    requires current.Some? ==> current.value in m.views
    ensures var r := Request(m, item, current, settings, params, callback);
      forall k :: 0 <= k < |r.state.cache| ==> InWindow(r.state.views, r.state.cache[k], item.index)
  {
    var detached := Detach(m.(viewerSettings := Some(settings)), current);
    var found := Lookup(detached.state, item.index);
    var refreshed := Refresh(detached.state, item, current, params);
    var answer := Respond(refreshed.state, found, item, settings, params, callback);
    WindowKept(refreshed.state, answer.state, item.index);
  }

  /** A cache list whose views keep their holdings stays within the window. */
  lemma WindowKept(a: Manager, b: Manager, center: int)
    requires a.Valid() && b.cache == a.cache
    requires forall id :: id in a.views ==> id in b.views && b.views[id].loaded == a.views[id].loaded
    requires forall k :: 0 <= k < |a.cache| ==> InWindow(a.views, a.cache[k], center)
    ensures b.Valid() ==> forall k :: 0 <= k < |b.cache| ==> InWindow(b.views, b.cache[k], center)
  {
    forall k | 0 <= k < |b.cache|
      ensures b.cache[k] in b.views && |b.views[b.cache[k]].loaded| > 0
      ensures InWindow(b.views, b.cache[k], center)
    {
      assert a.cache[k] in a.views;
    }
  }

  /**
   * A miss's creation callback runs only after the new view's load event:
   * the event queues it behind the callbacks already waiting, and the view
   * then waits for nothing, so a second load event queues nothing more. With
   * nothing queued before, the next settling step runs exactly this callback
   * and reports the view as new.
   */
  lemma CallbackAfterLoad(m: Manager, item: SpineItem, current: Option<ViewId>, settings: Settings,
                          params: CreationParams, callback: CallbackId,
                          iframe: Iframe, spineIndex: int, loaded: seq<int>)
    requires m.Valid()
    requires current.Some? ==> current.value in m.views
    requires !IsCached(m, item.index)
    requires |loaded| > 0
    ensures var r := Request(m, item, current, settings, params, callback);
      var l := LoadCompleted(r.state, r.view, iframe, spineIndex, loaded);
      && l.deferred == m.deferred + [Deferred(callback, r.view)]
      && r.view !in l.awaiting
      && LoadCompleted(l, r.view, iframe, spineIndex, loaded).deferred == l.deferred
      && (m.deferred == [] ==> Settle(l).effects == [Callback(callback, true, r.view)])
  {
    RequestMiss(m, item, current, settings, params, callback);
  }

  // ---------------------------------------------------------------------------
  // Eviction

  lemma {:induction false} SplitIdempotent(views: map<ViewId, View>, ids: seq<ViewId>, center: int)
    requires Tracked(views, ids)
    ensures SplitByWindow(views, SplitByWindow(views, ids, center).0, center)
            == (SplitByWindow(views, ids, center).0, [])
    decreases |ids|
  {
    if |ids| > 0 {
      SplitIdempotent(views, ids[1..], center);
      var rest := SplitByWindow(views, ids[1..], center);
      if InWindow(views, ids[0], center) {
        var kept := [ids[0]] + rest.0;
        assert kept[1..] == rest.0;
      }
    }
  }

  /**
   * Pruning twice around the same item is pruning once: the second pass
   * keeps the same cache list and removes nothing.
   */
  lemma ExpireIdempotent(m: Manager, center: int)
    requires m.Valid()
    ensures Expire(Expire(m, center).state, center).state == Expire(m, center).state
    ensures Expire(Expire(m, center).state, center).effects == []
  {
    SplitIdempotent(m.views, m.cache, center);
  }

  // ---------------------------------------------------------------------------
  // No two cached views share their first loaded item

  ghost predicate DistinctFirsts(views: map<ViewId, View>, ids: seq<ViewId>)
    requires Tracked(views, ids)
  {
    forall p, q :: 0 <= p < q < |ids| ==> views[ids[p]].loaded[0] != views[ids[q]].loaded[0]
  }

  ghost predicate UniqueFirsts(m: Manager)
    requires m.Valid()
  {
    DistinctFirsts(m.views, m.cache)
  }

  lemma {:induction false} SubsequenceKeepsDistinctFirsts(views: map<ViewId, View>, a: seq<ViewId>, b: seq<ViewId>)
    requires Subsequence(a, b) && Tracked(views, a) && Tracked(views, b)
    requires DistinctFirsts(views, b)
    ensures DistinctFirsts(views, a)
    decreases |b|
  {
    if |a| == 0 {
    } else if a[0] == b[0] && Subsequence(a[1..], b[1..]) {
      SubsequenceKeepsDistinctFirsts(views, a[1..], b[1..]);
      SubsequenceMembers(a[1..], b[1..]);
      forall q | 0 < q < |a|
        ensures views[a[0]].loaded[0] != views[a[q]].loaded[0]
      {
        assert a[q] == a[1..][q - 1];
        assert a[q] in a[1..];
        var j :| 0 <= j < |b[1..]| && b[1..][j] == a[q];
        assert b[j + 1] == a[q];
      }
    } else {
      SubsequenceKeepsDistinctFirsts(views, a, b[1..]);
    }
  }

  /** Pruning cannot make two cached views share a first item. */
  lemma ExpireKeepsUniqueFirsts(m: Manager, center: int)
    requires m.Valid() && UniqueFirsts(m)
    ensures UniqueFirsts(Expire(m, center).state)
  {
    var r := Expire(m, center);
    SubsequenceKeepsDistinctFirsts(m.views, r.state.cache, m.cache);
  }

  /**
   * The admission guard keeps first items unique: a load event on a view
   * outside the cache list admits it only when no cached view holds its
   * first item. (A load event on a view already in the list must report
   * what the view already holds.)
   */
  lemma LoadCompletedKeepsUniqueFirsts(m: Manager, id: ViewId, iframe: Iframe, spineIndex: int, loaded: seq<int>)
    requires m.Valid() && UniqueFirsts(m)
    requires id in m.views && |loaded| > 0
    requires id in m.cache ==> loaded == m.views[id].loaded
    ensures UniqueFirsts(LoadCompleted(m, id, iframe, spineIndex, loaded))
  {
    var r := LoadCompleted(m, id, iframe, spineIndex, loaded);
    if id in m.cache {
      assert r.views == m.views;
    } else {
      forall k | 0 <= k < |m.cache|
        ensures r.views[m.cache[k]] == m.views[m.cache[k]]
      {
        assert m.cache[k] != id;
      }
      if r.cache == m.cache + [id] {
        forall p | 0 <= p < |m.cache|
          ensures r.views[r.cache[p]].loaded[0] != loaded[0]
        {
          assert r.cache[p] == m.cache[p];
          assert !Holds(m.views, m.cache[p], loaded[0]);
        }
      }
    }
  }

  /**
   * The admission guard looks only at the first item a view has loaded, so
   * two cached views can hold the same spine item: a cached view holding 5
   * and an admitted two-page view that loaded [4, 5] both hold 5 afterwards.
   */
  lemma AdmissionChecksFirstItemOnly(m: Manager, holder: ViewId, id: ViewId, iframe: Iframe, spineIndex: int,
                                     loaded: seq<int>, x: int)
    requires m.Valid()
    requires holder in m.cache && Holds(m.views, holder, x)
    requires id in m.admitting && |loaded| > 0 && !IsCached(m, loaded[0]) && x in loaded
    ensures var r := LoadCompleted(m, id, iframe, spineIndex, loaded);
      && holder in r.cache && id in r.cache && holder != id
      && Holds(r.views, holder, x) && Holds(r.views, id, x)
  {
    var r := LoadCompleted(m, id, iframe, spineIndex, loaded);
    assert holder != id;
    assert r.cache == m.cache + [id];
    assert r.cache[|m.cache|] == id;
  }

  /**
   * A view reports nothing loaded until its load event, so a current view
   * still loading gives distance 0: when the item at the requested spine
   * position is not cached, prefetching opens that position itself twice,
   * once to its first page and once to its last.
   */
  lemma UnloadedCurrentPrefetchesItself(m: Manager, item: SpineItem, current: ViewId, params: CreationParams)
    requires m.Valid()
    requires current in m.views && |m.views[current].loaded| == 0
    requires 0 <= item.index < |m.spine| && m.spine[item.index] == item && !IsCached(m, item.index)
    ensures OpenRequests(CacheNeighbours(m, item, Some(current), params).effects)
      == [OpenRequest(item.index, FirstPage, 2), OpenRequest(item.index, LastPage, 1)]
  {
    NoDistancePrefetchesItself(m, item, Some(current), params);
  }

  /** At neighbour distance 0, an uncached requested item is prefetched twice. */
  lemma NoDistancePrefetchesItself(m: Manager, item: SpineItem, current: Option<ViewId>, params: CreationParams)
    requires m.Valid()
    requires current.Some? ==> current.value in m.views
    requires Distance(m, current) == 0
    requires 0 <= item.index < |m.spine| && m.spine[item.index] == item && !IsCached(m, item.index)
    ensures OpenRequests(CacheNeighbours(m, item, current, params).effects)
      == [OpenRequest(item.index, FirstPage, 2), OpenRequest(item.index, LastPage, 1)]
  {
    SelfPrefetches(m, item.index, Distance(m, current));
  }

  /** At distance 0 both neighbours are the position itself. */
  lemma SelfPrefetches(m: Manager, k: int, d: nat)
    requires d == 0 && NeighbourWanted(m, k)
    ensures Prefetches(m, k + d, FirstPage, 2) + Prefetches(m, k - d, LastPage, 1)
      == [OpenRequest(m.spine[k].index, FirstPage, 2), OpenRequest(m.spine[k].index, LastPage, 1)]
  {
  }

  /** Prefetching adds views outside the cache list, so the cached views' first items stay distinct. */
  lemma PrefetchedKeepsUniqueFirsts(m: Manager, s: Manager, params: CreationParams)
    requires m.Valid() && UniqueFirsts(m) && Prefetched(m, s, params)
    ensures UniqueFirsts(s)
  {
    assert forall k :: 0 <= k < |m.cache| ==> s.views[m.cache[k]] == m.views[m.cache[k]];
  }

  lemma CacheNeighboursKeepsUniqueFirsts(m: Manager, item: SpineItem, current: Option<ViewId>,
                                         params: CreationParams)
    requires m.Valid() && UniqueFirsts(m)
    requires current.Some? ==> current.value in m.views
    ensures UniqueFirsts(CacheNeighbours(m, item, current, params).state)
  {
    PrefetchedKeepsUniqueFirsts(m, CacheNeighbours(m, item, current, params).state, params.(cachedView := true));
  }

  /** A request only drops cached views and changes no view's holdings. */
  lemma RequestKeepsUniqueFirsts(m: Manager, item: SpineItem, current: Option<ViewId>, settings: Settings,
                                 params: CreationParams, callback: CallbackId)
    requires m.Valid() && UniqueFirsts(m)
    requires current.Some? ==> current.value in m.views
    ensures UniqueFirsts(Request(m, item, current, settings, params, callback).state)
  {
    var r := Request(m, item, current, settings, params, callback);
    ShrinkKeepsUniqueFirsts(m, r.state);
  }

  /**
   * A state whose cache list is drawn in order from `m`'s and whose views
   * keep their holdings keeps the cached views' first items distinct.
   */
  lemma ShrinkKeepsUniqueFirsts(m: Manager, s: Manager)
    requires m.Valid() && UniqueFirsts(m) && s.Valid()
    requires Subsequence(s.cache, m.cache)
    requires forall id :: id in m.views ==> id in s.views && s.views[id].loaded == m.views[id].loaded
    ensures UniqueFirsts(s)
  {
    SubsequenceMembers(s.cache, m.cache);
    assert DistinctFirsts(s.views, m.cache) by {
      forall p, q | 0 <= p < q < |m.cache|
        ensures s.views[m.cache[p]].loaded[0] != s.views[m.cache[q]].loaded[0]
      {
        assert m.views[m.cache[p]].loaded[0] != m.views[m.cache[q]].loaded[0];
      }
    }
    SubsequenceKeepsDistinctFirsts(s.views, s.cache, m.cache);
  }
}

=== FILE: view_types.dfy ===
/**
 * The pure classifiers of the view manager: which kind of view a spine item
 * should be shown in, which view class is built for each kind, and which kind
 * a built view reports back.
 */
module ViewTypes {
  import opened Options

  /** The reader's logical view kinds (`VIEW_TYPE_*`). */
  datatype ViewType = Columnized | Fixed | ScrolledDoc | ScrolledContinuous

  /** A spine item: its position in the spine and its layout flags. */
  datatype SpineItem = SpineItem(
    index: int,
    fixedLayout: bool,
    flowScrolledDoc: bool,
    flowScrolledContinuous: bool)

  /** The only part of a settings record the classifier reads. */
  datatype Settings = Settings(scroll: string)

  const ScrollDocSetting: string := "scroll-doc"
  const ScrollContinuousSetting: string := "scroll-continuous"

  /**
   * The view classes. `ScrollView` carries its constructor flag, which is what
   * its `isContinuousScroll()` reports; `OtherView` stands for any object that
   * is none of the four classes.
   */
  datatype Variant =
    | ReflowableView
    | FixedView
    | ScrollView(continuous: bool)
    | FallbackScrollView
    | OtherView

  /** The viewport overflow style chosen when a view is constructed. */
  datatype Overflow = OverflowHidden | OverflowAuto

  datatype Construction = Construction(variant: Variant, overflow: Overflow)

  /** True when the settings alone decide the view type. */
  predicate ScrollOverride(settings: Settings)
  {
    settings.scroll == ScrollDocSetting || settings.scroll == ScrollContinuousSetting
  }

  /**
   * Chooses the view type by priority: the scroll setting first, then the
   * item's fixed-layout flag, then its two flow flags, else columnized.
   * Each result is characterised by exactly the conditions that lead to it.
   */
  function DeduceDesiredViewType(item: SpineItem, settings: Settings): (t: ViewType)
    ensures t == ScrolledDoc <==>
      settings.scroll == ScrollDocSetting
      || (!ScrollOverride(settings) && !item.fixedLayout && item.flowScrolledDoc)
    ensures t == ScrolledContinuous <==>
      settings.scroll == ScrollContinuousSetting
      || (!ScrollOverride(settings) && !item.fixedLayout && !item.flowScrolledDoc
          && item.flowScrolledContinuous)
    ensures t == Fixed <==> !ScrollOverride(settings) && item.fixedLayout
    ensures t == Columnized <==>
      !ScrollOverride(settings) && !item.fixedLayout && !item.flowScrolledDoc
      && !item.flowScrolledContinuous
  {
    if settings.scroll == ScrollDocSetting then ScrolledDoc
    else if settings.scroll == ScrollContinuousSetting then ScrolledContinuous
    else if item.fixedLayout then Fixed
    else if item.flowScrolledDoc then ScrolledDoc
    else if item.flowScrolledContinuous then ScrolledContinuous
    else Columnized
  }

  /**
   * Classifies a view by its class; `None` for a missing view and for an
   * unrecognised one. The fallback scroll view poses as columnized.
   */
  function ViewTypeForView(view: Option<Variant>): (t: Option<ViewType>)
    ensures t.None? <==> view.None? || view.value.OtherView?
    ensures t == Some(Columnized) <==>
      view == Some(ReflowableView) || view == Some(FallbackScrollView)
    ensures t == Some(Fixed) <==> view == Some(FixedView)
    ensures t == Some(ScrolledDoc) <==> view == Some(ScrollView(false))
    ensures t == Some(ScrolledContinuous) <==> view == Some(ScrollView(true))
  {
    match view
    case None => None
    case Some(ReflowableView) => Some(Columnized)
    case Some(FixedView) => Some(Fixed)
    case Some(ScrollView(continuous)) =>
      if continuous then Some(ScrolledContinuous) else Some(ScrolledDoc)
    case Some(FallbackScrollView) => Some(Columnized)
    case Some(OtherView) => None
  }

  /**
   * Builds the view class for a type. Only a fixed-layout view lets the
   * viewport scroll (for panning); every other view hides overflow. The
   * built view classifies back to the requested type.
   */
  function CreateViewForType(t: ViewType): (c: Construction)
    ensures ViewTypeForView(Some(c.variant)) == Some(t)
    ensures c.overflow == OverflowAuto <==> t == Fixed
    ensures !c.variant.FallbackScrollView? && !c.variant.OtherView?
  {
    match t
    case Fixed => Construction(FixedView, OverflowAuto)
    case ScrolledDoc => Construction(ScrollView(false), OverflowHidden)
    case ScrolledContinuous => Construction(ScrollView(true), OverflowHidden)
    case Columnized => Construction(ReflowableView, OverflowHidden)
  }

  /** Distinct view types are built as distinct view classes. */
  lemma CreateViewForTypeInjective(t1: ViewType, t2: ViewType)
    requires CreateViewForType(t1).variant == CreateViewForType(t2).variant
    ensures t1 == t2
  {
    assert ViewTypeForView(Some(CreateViewForType(t1).variant)) == Some(t1);
    assert ViewTypeForView(Some(CreateViewForType(t2).variant)) == Some(t2);
  }

  /** An explicit scroll setting makes the item's own flags irrelevant. */
  lemma ScrollSettingOverridesItem(a: SpineItem, b: SpineItem, settings: Settings)
    requires ScrollOverride(settings)
    ensures DeduceDesiredViewType(a, settings) == DeduceDesiredViewType(b, settings)
  {
  }

  /** A fixed-layout item ignores its flow flags. */
  lemma FixedLayoutIgnoresFlow(a: SpineItem, b: SpineItem, settings: Settings)
    requires a.fixedLayout && b.fixedLayout
    ensures DeduceDesiredViewType(a, settings) == DeduceDesiredViewType(b, settings)
  {
  }
}
